=== FILE: README.md ===
# Storefront services in Dafny

A model of the business rules of a NestJS/Prisma storefront:

- the cart and checkout of the products service, with its paging arithmetic and bookmark set;
- coupons and flash sales of the sales service;
- order visibility and admin rules of the orders service;
- accounts and roles of the user service;
- the activation, sign-in, password-reset and refresh-token records of the auth service;
- the exception filter that turns a Prisma error code into an HTTP response.

Every Prisma table is a field of one immutable record, `Store.Db`: maps for
keyed tables, sequences for tables read in row order, sets for pure relations
(user roles, wish lists, profiles). Each service method is a pure function
from a `Db` and the request to a `Result`. The error side names the Nest
exception and its message, `Internal` stands for a plain JavaScript error, and
`Database(code)` stands for a Prisma known-request error. An `Err` carries no
state: every check the model makes comes before the operation's first write.
Failures the database or the mailer could raise after a write has happened
are not modelled (see "## Left out").

Inputs from outside become parameters:

- the clock (`now`);
- the identifiers the database assigns (`id`), except for tables modelled as
  sequences, where a new row gets one more than the largest id present
  (`Common.NextId`);
- fresh random refresh tokens, with a precondition that the token is not yet stored;
- the `Math.random()` draw behind six-digit codes;
- whether a profile insert succeeded;
- the rendering of a decimal column into a message (`render`).

bcrypt is the injective function `Store.Bcrypt`, and a password matches
exactly the hash of itself. Money is Dafny's `real`. A line total
`price * quantity` is `Common.Times(price, quantity)`: repeated addition,
which `Common.TimesIsProduct` proves equal to the product. This keeps the
totals in linear arithmetic.

JavaScript truthiness is explicit. `Common.Truthy` treats a missing number or
0 as false; `TruthyReal` and `TruthyString` do the same for reals and strings
(`""` is false). A role's permissions are a nullable text column read with
`includes`, so `Users.IsAdmin` is a substring test. The "superadmin" test adds
nothing to it (`Users.IsAdminMeansAdminMention`).

The model follows the code, including these behaviours of it:

- Checkout applies no coupon and no flash-sale price: shipping and discount
  are constant 0, and the order total is the sum of the line totals. Stock is
  decremented after the order is written, with no second check at that point,
  so a cart listing one product on two lines can drive stock below zero
  (`Checkout.DuplicateLinesOversell`).
- `removeBookmark` relies on Prisma's `delete`, which throws `P2025` for a
  missing row. Its own "Bookmark not found" branch
  (src/modules/products/products.service.ts:477-479) can never run, so the
  client sees 404 "Record not found".
- A coupon whose start or end date is null never matches the date window of
  `findCouponByCode`/`validateCoupon`, as an SQL comparison with NULL does not
  hold. This is a modelling choice for what the query does with such a row.
- The sign-in gate reads the user's first activation row only
  (`findFirst` without `completed` in the filter). A user whose first
  activation is completed passes even if a later one is pending, and a user
  with no activation row may sign in.

## Model

| member | source | states |
|---|---|---|
| Cart.FindIndex | src/modules/products/products.service.ts:276-278 | -1 exactly when no line holds the product; otherwise the index of the first line that does |
| Cart.MergeLine | src/modules/products/products.service.ts:275-291 | a product already in the cart adds the quantity to its first line, which keeps its variant and options, and every other line stays; a new product is appended as one line at the end |
| Cart.AddToCartStores | src/modules/products/products.service.ts:275-291 | a successful add stores the merge of the existing lines (none when the user had no cart) with the request and leaves the catalog alone |
| Cart.AddToCart | src/modules/products/products.service.ts:245-314 | the product check (NotFound) precedes the stock check on the requested increment (BadRequest); success iff both pass and the payload has items, and then only this user's cart changes, to the merged payload |
| Cart.MergeLineQuantities | src/modules/products/products.service.ts:276-291 | merging raises the product's total quantity by the request and leaves every other product's quantity |
| Cart.MergeLineKeepsDistinct | src/modules/products/products.service.ts:276-291 | a positive merge keeps distinct products and positive quantities |
| Cart.AddToCartBag | src/modules/products/products.service.ts:245-314 | for a validated request a well-formed cart stays well-formed and gains exactly the requested quantity of the product, no other product changing |
| Cart.UpdateCartItem | src/modules/products/products.service.ts:316-379 | errors in the order no cart, payload without items, product not in cart, product unavailable, stock short (only for a truthy quantity); success exactly when none applies, and then only this user's cart changes |
| Cart.UpdateCartItemStores | src/modules/products/products.service.ts:355-367 | quantity 0 splices out the first line of the product; any other quantity, or none, rewrites that line in place, a missing quantity leaving the quantity and changing only a given variant |
| Cart.Revised | src/modules/products/products.service.ts:355-362 | a revised line keeps product and options, takes the new quantity when given and the new variant when given |
| Cart.UpdateCartItemBag | src/modules/products/products.service.ts:355-367 | on distinct products the product's quantity becomes the requested one, 0 removes it from the cart, other products keep theirs |
| Cart.ReviseLineBag | src/modules/products/products.service.ts:355-367 | revising line k sets that product's count to the new quantity and keeps products distinct |
| Cart.UpdateCartItemKeepsWellFormed | src/modules/products/products.service.ts:355-367 | a validated (absent or positive) quantity never removes a line and keeps the cart well-formed |
| Cart.RemoveFromCart | src/modules/products/products.service.ts:381-415 | NotFound when there is no cart or no line of the product, the TypeError for a payload without items; otherwise exactly the first matching line is removed and the rest keep their order |
| Cart.RemoveFromCartBag | src/modules/products/products.service.ts:394-403 | removal takes the product's whole quantity out of a well-formed cart, keeps it well-formed and leaves other products |
| Cart.ClearCart | src/modules/products/products.service.ts:417-423 | P2025 exactly when there is no cart; otherwise only that cart is deleted |
| Cart.GetCart | src/modules/products/products.service.ts:184-243 | no cart or no items gives the empty view with total and count 0; each item names an existing product and there are at most as many items as lines |
| Cart.DetailsAreLiveLines | src/modules/products/products.service.ts:199-233 | the view lists exactly the lines whose product still exists, in cart order, each priced at the catalog price with subtotal price × quantity |
| Cart.MergeLineTotals | src/modules/products/products.service.ts:276-291 | merging raises the view's count by the quantity and its total by price × quantity, in both branches |
| Cart.AddToCartRaisesTotals | src/modules/products/products.service.ts:236-291 | after a successful add, `getCart` reports a count larger by the quantity and a total larger by price × quantity |
| Cart.RemoveFromCartLowersTotals | src/modules/products/products.service.ts:394-403 | removing a line lowers count and total by that line's contribution, nothing for a deleted product |
| Checkout.FirstProblem | src/modules/products/products.service.ts:571-592 | no error iff every line's product is active and stocked; otherwise the error of the first failing line |
| Checkout.CheckoutLines | src/modules/products/products.service.ts:552-565 | lines exist iff there is a cart whose payload has a non-empty items list |
| Checkout.OrderLinesFor | src/modules/products/products.service.ts:594-602 | one order line per cart line, in cart order, with the order id, product and quantity of that line, the product's current price and the line total price × quantity |
| Checkout.OrderLineTotals | src/modules/products/products.service.ts:594-602 | each order line records the product's price at checkout as unit price and unit price × quantity as line total |
| Checkout.PlaceOrder | src/modules/products/products.service.ts:539-694 | errors in the order user, empty cart, first bad line; success iff none applies, and then the store changes only by one appended pending order (fresh id, the user's email, the request's payment method, the given or default billing and shipping addresses, the given note or "", shipping cost and discount 0, the fixed currency, created and updated now, no coupon, total equal to the sum of its line totals), the cart's order lines appended, every line's stock decrement and the deletion of this cart |
| Checkout.OrderLinesMatchView | src/modules/products/products.service.ts:594-602 | the order lines' totals and quantities add up to the `getCart` total and count of the same lines |
| Checkout.OrderTotalIsCartTotal | src/modules/products/products.service.ts:594-612 | the order total equals the total `getCart` showed just before, and its lines carry the cart's count |
| Checkout.DecrementStockTakes | src/modules/products/products.service.ts:666-679 | each stock-tracking product loses its total quantity over all lines; other products and fields are unchanged |
| Checkout.CheckoutStock | src/modules/products/products.service.ts:590-679 | with distinct products each line's quantity comes off its product and no tracked stock goes negative |
| Checkout.CheckoutLeavesOtherStock | src/modules/products/products.service.ts:666-679 | a product on no line keeps its row |
| Checkout.DuplicateLinesOversell | src/modules/products/products.service.ts:571-679 | a payload listing one product twice passes the per-line check and drives stock to -1 |
| Checkout.TwoUnitsScenario | src/modules/products/products.service.ts:539-694 | two units at 10.00 with five in stock give a pending order of 20.00, three left, cart gone |
| Common.TimesIsProduct | src/modules/products/products.service.ts:594 | repeated addition of the price equals price × quantity |
| Catalog.PageCount | src/modules/products/products.service.ts:178 | `ceil(total / limit)`: enough pages for every row, the last one non-empty, zero only for no rows |
| Catalog.Page | src/modules/products/products.service.ts:143-164 | at most `limit` rows, the rows starting at `(page - 1) * limit` in order |
| Catalog.PageNonEmpty | src/modules/products/products.service.ts:143-178 | a page has rows iff its number is at most the reported page count |
| Catalog.PagesPrefix | src/modules/products/products.service.ts:143-164 | the first n pages are the first n × limit rows |
| Catalog.AllPages | src/modules/products/products.service.ts:143-178 | reading pages 1 to the reported count returns every row once, in order |
| Catalog.AddBookmark | src/modules/products/products.service.ts:426-464 | NotFound for an unavailable product, then BadRequest for an existing pair; success adds exactly the pair |
| Catalog.RemoveBookmark | src/modules/products/products.service.ts:466-482 | P2025 iff the pair is absent; success removes exactly the pair |
| Catalog.BookmarkRoundTrip | src/modules/products/products.service.ts:426-536 | after an add the product is bookmarked, a second add fails, and removing restores the store |
| Catalog.RemoveBookmarkForgets | src/modules/products/products.service.ts:466-536 | after a removal the pair is not bookmarked, a second removal fails with P2025, and other pairs are unaffected |
| Sales.FindUsable | src/modules/sales/sales.service.ts:579-586 | none iff no coupon has the code, is active and is in its date window; otherwise a coupon of the table that is |
| Sales.FindCouponByCode | src/modules/sales/sales.service.ts:445-485 | NotFound when no usable coupon, BadRequest when the per-coupon cap is reached, and the usable coupon returned exactly when its cap is not reached |
| Sales.ValidateCoupon | src/modules/sales/sales.service.ts:578-631 | only the first failing check is reported, in the order lookup, coupon cap, customer cap, minimum, maximum; success exactly when all pass, with a quote of the found coupon's id, code, value, flags and discount |
| Sales.DiscountBounds | src/modules/sales/sales.service.ts:627-629 | a percentage of at most 100 discounts between 0 and the total; a fixed amount is its value, uncapped |
| Sales.DiscountExamples | src/modules/sales/sales.service.ts:627-629 | 10 percent of 20 is 2; a fixed 30 on a total of 20 stays 30 |
| Sales.AcceptedCouponWithinBounds | src/modules/sales/sales.service.ts:592-619 | an accepted coupon is usable, under both caps, and the total lies within its truthy spend bounds inclusive |
| Sales.WithinBoundsIsAccepted | src/modules/sales/sales.service.ts:578-631 | conversely, a found coupon under both caps with the total inside its spend bounds, both ends included, is accepted with the quote of that coupon |
| Sales.ValidatedCouponIsFound | src/modules/sales/sales.service.ts:445-485 | a coupon that validates is also found by code, with the same id |
| Sales.CheckoutLeavesCouponsAlone | src/modules/sales/sales.service.ts:578-631 | a checkout changes no answer of the validator, since orders it writes carry no coupon |
| Sales.NullIfZero | src/modules/sales/sales.service.ts:365-368 | `x || null`: stored iff truthy, and then unchanged |
| Sales.NullIfZeroReal | src/modules/sales/sales.service.ts:365-366 | the same for spend amounts |
| Sales.CreateCoupon | src/modules/sales/sales.service.ts:331-381 | Unauthorized for non-admins, then BadRequest for an existing code; success appends one row built from the form with a fresh id and changes nothing else |
| Sales.CreateCouponDefaults | src/modules/sales/sales.service.ts:358-375 | the new row has the code and value, used 0, each flag as given or else percent false, free shipping false and active true, each spend bound and limit stored iff truthy and then as given, and the dates as given; codes stay unique |
| Sales.CreatedCouponIsFound | src/modules/sales/sales.service.ts:331-485 | a created active coupon with a positive or no limit is found by code inside its window |
| Sales.FindUsableLast | src/modules/sales/sales.service.ts:579-586 | when only the last row is usable, the lookup finds it |
| Sales.Entries | src/modules/sales/sales.service.ts:37-50 | one entry per submitted product in order, quantity and position 0 when falsy |
| Sales.CreateFlashSale | src/modules/sales/sales.service.ts:11-70 | Unauthorized exactly for non-admins; success appends one sale row with a new id and the given time, keeps every earlier sale, and appends the entries of a non-empty product list (nothing otherwise), changing no other table |
| Sales.CreatedSaleEntries | src/modules/sales/sales.service.ts:37-50 | the new sale's entries are exactly the submitted list, or none |
| Sales.UpdateFlashSale | src/modules/sales/sales.service.ts:204-284 | Unauthorized, then NotFound; success stamps only this sale's update time and leaves entries alone when no products are given |
| Sales.Stamp | src/modules/sales/sales.service.ts:231-237 | only the sale with the id gets the new update time |
| Sales.UpdateReplacesEntries | src/modules/sales/sales.service.ts:239-259 | with products given, the sale's entries become exactly the list and other sales' entries stay |
| Sales.FindActiveFlashSales | src/modules/sales/sales.service.ts:114-147 | the live entries, as a permutation, sorted by position ascending |
| Sales.ActiveMeansUnexpired | src/modules/sales/sales.service.ts:114-128 | an entry is listed iff it is in the table and has not ended |
| Orders.Create | src/modules/orders/orders.service.ts:10-14 | always fails with the direct-create error |
| Common.SortBy | src/modules/orders/orders.service.ts:42-44 | ordering by a key returns a permutation of the rows, sorted by that key |
| Orders.Listing | src/modules/orders/orders.service.ts:25-45 | the matching orders, newest first, each matching order present and nothing else |
| Orders.FindAll | src/modules/orders/orders.service.ts:16-45 | a non-admin sees exactly their orders, an admin every order, newest first |
| Orders.AdminSeesAll | src/modules/orders/orders.service.ts:19-23 | an admin's listing is a permutation of the order table |
| Orders.History | src/modules/orders/orders.service.ts:266-307 | only the user's orders |
| Orders.HistoryIsOwnListing | src/modules/orders/orders.service.ts:266-288 | the history is the user's non-admin `findAll` |
| Orders.FirstVisible | src/modules/orders/orders.service.ts:75-98 | the first order with the id the caller may see, or -1 |
| Orders.FindOne | src/modules/orders/orders.service.ts:72-102 | NotFound iff no visible order has the id; otherwise a visible order with that id |
| Orders.FindOneInFindAll | src/modules/orders/orders.service.ts:16-102 | an order `findOne` returns also appears in the caller's `findAll` |
| Orders.OthersOrdersLookMissing | src/modules/orders/orders.service.ts:75-102 | another customer's order answers as if no order existed |
| Orders.Update | src/modules/orders/orders.service.ts:156-184 | Unauthorized, then NotFound; success applies the edit and stamps only the orders with the id |
| Orders.Remove | src/modules/orders/orders.service.ts:186-212 | Unauthorized, then NotFound; success deletes the order and its lines and keeps every other row |
| Orders.RemovedOrderIsGone | src/modules/orders/orders.service.ts:202-209 | after a removal the order is not found |
| Orders.FindByStatus | src/modules/orders/orders.service.ts:215-263 | Unauthorized exactly for non-admins; otherwise exactly the orders with the status, newest first |
| Orders.UpdateOrderStatus | src/modules/orders/orders.service.ts:310-349 | Unauthorized for non-admins, then NotFound; success changes only status and update time of that order |
| Orders.AnyStatusFollowsAny | src/modules/orders/orders.service.ts:337-343 | any allowed status may follow any other, and the second update does not depend on the first |
| Users.IsAdminMeansAdminMention | src/modules/user/user.service.ts:466-478 | the admin check holds iff some held role's permissions mention "admin" |
| Users.SuperadminIsAdmin | src/modules/user/user.service.ts:474-477 | a role mentioning "superadmin" makes its holder an admin |
| Common.SuperadminMentionsAdmin | src/modules/user/user.service.ts:475-476 | a text containing "superadmin" contains "admin" |
| Users.Create | src/modules/user/user.service.ts:11-40 | BadRequest iff the email is taken; success adds one user with the hashed password and returns it without the password |
| Users.CreateKeepsEmailsUnique | src/modules/user/user.service.ts:13-19 | emails stay unique |
| Users.FindOne | src/modules/user/user.service.ts:93-130 | Unauthorized for another's id without admin, before NotFound |
| Users.Update | src/modules/user/user.service.ts:132-183 | Unauthorized, NotFound, then BadRequest for a new non-empty email held by another user; success writes only this user |
| Users.UpdateKeepsEmailsUnique | src/modules/user/user.service.ts:147-176 | emails stay unique, other users unchanged, fields not supplied keep their values |
| Users.UpdatePasswordTakesEffect | src/modules/user/user.service.ts:168-171 | after a password change exactly the new password matches |
| Users.Remove | src/modules/user/user.service.ts:185-236 | Unauthorized, NotFound, then BadRequest for self; success deletes the user and their roles, activations, reminders, addresses, default addresses and bookmarks, adds no row, keeps every other user's rows and leaves every other table as it was |
| Users.RemoveOnlyDeletes | src/modules/user/user.service.ts:205-233 | removal only deletes rows |
| Users.AssignRole | src/modules/user/user.service.ts:346-403 | Unauthorized, user NotFound, role NotFound, then BadRequest for an existing pair; success adds exactly the pair |
| Users.RemoveRole | src/modules/user/user.service.ts:406-463 | the same guards, BadRequest for a missing pair; success removes exactly the pair |
| Users.AssignThenRemove | src/modules/user/user.service.ts:379-460 | assigning then removing restores the store, and a repeated assign fails |
| Users.RemoveThenAssign | src/modules/user/user.service.ts:379-460 | removing then assigning restores the store, and a repeated removal fails |
| Users.LastAdminCanDemoteThemself | src/modules/user/user.service.ts:406-463 | an admin may remove their own only admin role and is then no admin |
| Auth.SixDigitCode | src/modules/auth/auth.service.ts:458-460 | the code lies in [100000, 999999] |
| Auth.CodeText | src/modules/auth/auth.service.ts:458-460 | the code's text is six digits that read back as the code |
| Common.ParseNatToString | src/modules/auth/auth.service.ts:459 | `toString` of a number reads back as the number |
| Auth.UserByEmail | src/modules/auth/auth.service.ts:206-207 | the user holding the email, found iff the email is taken |
| Auth.FirstWhere | src/modules/auth/auth.service.ts:213-215 | `findFirst`: -1 iff no row matches; otherwise the first matching row |
| Auth.Complete | src/modules/auth/auth.service.ts:136-143 | only row k changes, becoming completed at `now` with its id, user and code kept |
| Auth.AddPending | src/modules/auth/auth.service.ts:69-76 | one pending row for the user with the code is appended with an id above every other |
| Auth.Signup | src/modules/auth/auth.service.ts:25-105 | BadRequest iff the email is taken; success adds the user with the hashed password, a profile iff a profile field was given and saved, one pending activation and the refresh token, and nothing else |
| Auth.Register | src/modules/auth/auth.service.ts:29-76 | the rows written before the token: the user, the optional profile and one pending activation |
| Auth.SignupKeepsEmailsUnique | src/modules/auth/auth.service.ts:26-27 | emails stay unique |
| Auth.Signin | src/modules/auth/auth.service.ts:205-239 | Invalid email, then Incorrect Password, then not activated when the first activation row is pending; success stores a token for the user |
| Auth.SignupBlocksSignin | src/modules/auth/auth.service.ts:67-76 | a new account cannot sign in until activated |
| Auth.NoActivationMaySignIn | src/modules/auth/auth.service.ts:213-219 | a user with no activation row signs in with the right password |
| Auth.ActivateAccountByAdmin | src/modules/auth/auth.service.ts:108-160 | Forbidden for non-admins, then BadRequest without a pending activation; success completes the first pending one |
| Auth.AdminActivationOpensGate | src/modules/auth/auth.service.ts:126-143 | after an admin activation the user is not blocked |
| Auth.ActivateAccountWithCode | src/modules/auth/auth.service.ts:163-203 | BadRequest iff no pending row has the code; success completes that row and stores a token for its user |
| Auth.ActivationCodeSingleUse | src/modules/auth/auth.service.ts:164-181 | an activation code works once |
| Auth.ForgetPassword | src/modules/auth/auth.service.ts:241-259 | BadRequest iff the email is unknown; success appends one pending reminder for the user carrying the six-digit code of the draw |
| Auth.ResetPassword | src/modules/auth/auth.service.ts:261-290 | BadRequest without a pending reminder, P2025 when its user is gone; success exactly otherwise, rehashing only that user's password and completing the reminder, with no expiry check |
| Auth.ForgetThenReset | src/modules/auth/auth.service.ts:241-290 | the code a reminder request appends resets the asking user's password and completes that reminder, when no earlier pending reminder has the same digits |
| Auth.ResetThenSignin | src/modules/auth/auth.service.ts:261-290 | the new password signs in an unblocked user and the reset code works once |
| Auth.VerifyRefreshToken | src/modules/auth/auth.service.ts:391-401 | the stored user of a token, none for an unknown token |
| Auth.RemoveRefreshToken | src/modules/auth/auth.service.ts:404-408 | the token no longer verifies and every other token verifies as before |
| Auth.RemoveRefreshTokenIdempotent | src/modules/auth/auth.service.ts:404-408 | removing twice is removing once; removing an absent token changes nothing |
| Auth.RefreshToken | src/modules/auth/auth.service.ts:411-449 | Unauthorized for an unknown token, NotFound for a vanished user; success makes the new token verify to the user and the old one not |
| Auth.RotatedTokenIsDead | src/modules/auth/auth.service.ts:433-437 | a rotated token is refused on its next use |
| PrismaFilter.StatusAndMessage | src/common/filters/prisma-exception.filter.ts:20-36 | P2002 is 409 naming the target, P2025 404 "Record not found", P2003 400 "Related record not found", anything else 500 "Database operation failed" |
| PrismaFilter.Catch | src/common/filters/prisma-exception.filter.ts:13-44 | the body echoes the status, names "Database Error" and passes the timestamp |
| PrismaFilter.StatusIdentifiesCode | src/common/filters/prisma-exception.filter.ts:20-36 | each status other than 500 comes from exactly one code, and only P2002's message depends on the target |
| PrismaFilter.UniqueMessageNamesTarget | src/common/filters/prisma-exception.filter.ts:21-24 | one field is named as is; a missing target reads "undefined" |
| PrismaFilter.JoinSplits | src/common/filters/prisma-exception.filter.ts:22 | a target list renders as its fields joined by commas |
| PrismaFilter.AbsentBookmarkIsNotFound | src/modules/products/products.service.ts:466-479 | deleting a missing bookmark reaches the client as 404 "Record not found" |

## Left out

- Prisma I/O, JSON parsing of the cart payload and concurrency: tables are in-memory values and each request runs alone. The racy read-then-write stock decrement and two concurrent checkouts of one cart are not modelled. A payload that is not JSON is not modelled; one without `items` is `CartRecord(None)`.
- Update and creation timestamps of carts, products, activations and order lines are not stored; order, flash-sale and user timestamps are.
- Failures after a write: `forgetPassword` awaits the reset mail after inserting the reminder, `activateAccountByAdmin` awaits the notification after completing the activation, and `checkout` runs several writes in a row. A mail or database failure there leaves the earlier writes in place; the model treats these steps as infallible.
- Users.Remove: always succeeds once its three guards pass. In the source, the final `users.delete` runs after six `deleteMany` calls, and a foreign-key failure (P2003) raised by rows the cascade does not touch, such as refresh tokens, profiles, carts or orders, would leave those six deletions applied. The schema's referential actions are not part of this model.
- Mail delivery, JWT access tokens and the returned response bodies beyond the fields the contracts name: they are I/O or presentation.
- Translations, slugs, images and names in listings (`Unknown Product` and the like), and a product's name only as the stock-short message needs it.
- `searchProducts`' where clause and sort column: only its paging arithmetic is modelled, because the rest is Prisma filter semantics.
- `getUserBookmarks`, `findAllFlashSales`, `findOneFlashSale`, `removeFlashSale`, `findAllCoupons`, `findOneCoupon`, `updateCoupon`, `removeCoupon`, `user.findAll`, `getProfile`, `updateProfile`, `getUserRoles`, `getUserRole`, `getPendingActivations` and product CRUD: listings and CRUD with no rule beyond those already modelled.
- Foreign-key failures (P2003) on inserts such as a flash-sale entry for a missing product: the model assumes the referenced rows exist.
- Floating point: prices, totals and discounts are exact reals, and `Math.floor(100000 + Math.random() * 900000)` is exact real arithmetic on the draw.
- Prisma `Decimal` truthiness: a decimal spend bound of 0 is treated as falsy, like a JavaScript number, whereas a `Decimal` object is always truthy.
- The contents of the profile row and its country default: only whether a profile exists is modelled.
- Signup, RefreshToken and Users.Create: the fresh user id and the fresh token are preconditions, as the database and the random generator supply them.
- Catalog.Page: the page is characterised by its length bound and its elements, not by an equality with one slice.
- Cart.GetCart: the per-item content is stated by Cart.DetailsAreLiveLines, and the totals by the lemmas about adding and removing.

=== FILE: auth.dfy ===
/** The auth service as record state machines: activation records go from
    pending to completed (by an admin, or once by code), password-reset
    reminders are single-use, and refresh tokens are a map from live token to
    user that each refresh rotates. bcrypt is `Store.Bcrypt`; JWT access
    tokens are not modelled; random tokens and draws are parameters. */
module Auth {
  import opened Common
  import opened Store
  import Users

  // ---------------------------------------------------------------------------
  // Six-digit codes

  /** `Math.floor(100000 + Math.random() * 900000)` for a draw in [0, 1). */
  function SixDigitCode(draw: real): (n: nat)
    requires 0.0 <= draw < 1.0
    ensures 100000 <= n <= 999999
  {
    (100000.0 + draw * 900000.0).Floor
  }

  /** The code's decimal text: six digits that read back as the code. */
  function CodeText(draw: real): (s: string)
    requires 0.0 <= draw < 1.0
    ensures |s| == 6
    ensures forall i :: 0 <= i < |s| ==> IsDigit(s[i])
    ensures ParseDigits(s) == SixDigitCode(draw)
  {
    var n := SixDigitCode(draw);
    assert Pow10(5) == 100000 && Pow10(6) == 1000000 by {
      assert Pow10(1) == 10;
      assert Pow10(2) == 100;
      assert Pow10(3) == 1000;
      assert Pow10(4) == 10000;
    }
    NatToStringLength(n, 6);
    ParseNatToString(n);
    NatToString(n)
  }

  // ---------------------------------------------------------------------------
  // Lookups

  /** `users.findUnique({ email })`; the column is unique. */
  function UserByEmail(users: map<UserId, User>, email: string): (r: Option<UserId>)
    requires EmailsUnique(users)
    ensures r.Some? <==> EmailTaken(users, email)
    ensures r.Some? ==> r.value in users && users[r.value].email == email
  {
    if EmailTaken(users, email) then
      var id :| id in users && users[id].email == email;
      Some(id)
    else None
  }

  /** `findFirst` over a code table: the index of the first record that
      `keep` accepts, or -1. */
  function FirstWhere(records: seq<CodeRecord>, keep: CodeRecord -> bool): (k: int)
    ensures -1 <= k < |records|
    ensures k == -1 <==> forall i :: 0 <= i < |records| ==> !keep(records[i])
    ensures k >= 0 ==> keep(records[k]) && forall i :: 0 <= i < k ==> !keep(records[i])
    decreases |records|
  {
    if |records| == 0 then -1
    else if keep(records[0]) then 0
    else
      var k := FirstWhere(records[1..], keep);
      assert forall i :: 1 <= i < |records| ==> records[i] == records[1..][i - 1];
      if k == -1 then -1 else k + 1
  }

  /** A record still waiting for its code. */
  predicate PendingCode(r: CodeRecord, code: string) {
    r.code == code && !r.completed
  }

  predicate PendingFor(r: CodeRecord, userId: UserId) {
    r.userId == userId && !r.completed
  }

  /** The record at `k`, marked used at `now`. */
  function Complete(records: seq<CodeRecord>, k: nat, now: Timestamp): (r: seq<CodeRecord>)
    requires k < |records|
    ensures |r| == |records|
    ensures r[k].completed && r[k].completedAt == Some(now)
    ensures r[k].id == records[k].id && r[k].userId == records[k].userId && r[k].code == records[k].code
    ensures forall i :: 0 <= i < |r| && i != k ==> r[i] == records[i]
  {
    records[k := records[k].(completed := true, completedAt := Some(now))]
  }

  /** Inserts a pending code row for the user; the table's auto-increment
      gives it an id above every existing one. */
  function AddPending(records: seq<CodeRecord>, userId: UserId, code: string): (r: seq<CodeRecord>)
    ensures |r| == |records| + 1
    ensures r[..|records|] == records
    ensures PendingFor(r[|records|], userId) && r[|records|].code == code
    ensures forall i :: 0 <= i < |records| ==> records[i].id < r[|records|].id
  {
    var added := CodeRecord(NextId(records, (a: CodeRecord) => a.id), userId, code, false, None);
    assert (records + [added])[..|records|] == records;
    records + [added]
  }

  /** `persistences.create`: the token now names the user. */
  function StoreToken(db: Db, token: string, userId: UserId): Db {
    db.(persistences := db.persistences[token := userId])
  }

  // ---------------------------------------------------------------------------
  // signup

  const EmailExistsMessage := "Email already exist"

  datatype SignupForm = SignupForm(
    firstName: string,
    lastName: string,
    email: string,
    password: string,
    phone: Option<string>,
    jobRole: Option<string>,
    licenseNumber: Option<string>,
    extension: Option<string>,
    instituteName: Option<string>,
    addressLine1: Option<string>,
    townCity: Option<string>,
    country: Option<string>)

  /** Some profile field is present and non-empty. */
  predicate WantsProfile(f: SignupForm) {
    TruthyString(f.jobRole) || TruthyString(f.licenseNumber) || TruthyString(f.extension)
      || TruthyString(f.instituteName) || TruthyString(f.addressLine1) || TruthyString(f.townCity)
      || TruthyString(f.country)
  }

  datatype SignupReply = SignupReply(userId: UserId, activationCode: string, refreshToken: string)

  /** `signup`: a taken email is refused. Otherwise the user is created, a
      profile row is attempted when a profile field is given (`profileSaved`
      is whether that insert succeeded; a failure is swallowed), one pending
      activation with a six-digit code is appended, and a refresh token is
      stored. `id` is the identifier the database assigns, `token` the fresh
      random token, `draw` the random number behind the code. */
  function Signup(db: Db, f: SignupForm, id: UserId, token: string, draw: real, profileSaved: bool,
                  now: Timestamp): (r: Result<(Db, SignupReply)>)
    requires id !in db.users && token !in db.persistences && 0.0 <= draw < 1.0
    ensures r.Err? <==> EmailTaken(db.users, f.email)
    ensures r.Err? ==> r.error == BadRequest(EmailExistsMessage)
    ensures r.Ok? ==> var (after, reply) := r.value;
      && reply.userId == id && reply.refreshToken == token && |reply.activationCode| == 6
      && after == db.(users := after.users, profiles := after.profiles, activations := after.activations,
                      persistences := after.persistences)
      && after.users.Keys == db.users.Keys + {id}
      && (forall u :: u in db.users ==> after.users[u] == db.users[u])
      && after.users[id].email == f.email
      && PasswordMatches(f.password, after.users[id].password)
      && (id in after.profiles <==> id in db.profiles || (WantsProfile(f) && profileSaved))
      && (forall u :: u != id ==> (u in after.profiles <==> u in db.profiles))
      && |after.activations| == |db.activations| + 1
      && after.activations[..|db.activations|] == db.activations
      && PendingFor(after.activations[|db.activations|], id)
      && after.activations[|db.activations|].code == reply.activationCode
      && after.persistences == db.persistences[token := id]
  {
    if EmailTaken(db.users, f.email) then Err(BadRequest(EmailExistsMessage))
    else
      var code := CodeText(draw);
      Ok((StoreToken(Register(db, f, id, code, profileSaved, now), token, id), SignupReply(id, code, token)))
  }

  /** The rows signup writes before the token: the user with the hashed
      password, the optional profile and the pending activation. */
  function Register(db: Db, f: SignupForm, id: UserId, code: string, profileSaved: bool,
                    now: Timestamp): (after: Db)
    requires id !in db.users
    ensures after == db.(users := after.users, profiles := after.profiles, activations := after.activations)
    ensures after.users.Keys == db.users.Keys + {id}
    ensures forall u :: u in db.users ==> after.users[u] == db.users[u]
    ensures after.users[id].email == f.email
    ensures PasswordMatches(f.password, after.users[id].password)
    ensures id in after.profiles <==> id in db.profiles || (WantsProfile(f) && profileSaved)
    ensures forall u :: u != id ==> (u in after.profiles <==> u in db.profiles)
    ensures after.activations == AddPending(db.activations, id, code)
  {
    var u := User(f.firstName, f.lastName, f.email, OrElse(f.phone, ""), Bcrypt(f.password), now, now);
    var profiles := if WantsProfile(f) && profileSaved then db.profiles + {id} else db.profiles;
    db.(users := db.users[id := u], profiles := profiles, activations := AddPending(db.activations, id, code))
  }

  /** Signup keeps emails unique. */
  lemma SignupKeepsEmailsUnique(db: Db, f: SignupForm, id: UserId, token: string, draw: real,
                                profileSaved: bool, now: Timestamp)
    requires id !in db.users && token !in db.persistences && 0.0 <= draw < 1.0
    requires EmailsUnique(db.users)
    requires Signup(db, f, id, token, draw, profileSaved, now).Ok?
    ensures EmailsUnique(Signup(db, f, id, token, draw, profileSaved, now).value.0.users)
  {
    var after := Signup(db, f, id, token, draw, profileSaved, now).value.0;
    forall a, b | a in after.users && b in after.users && a != b
      ensures after.users[a].email != after.users[b].email
    {
      if a == id {
        assert b in db.users;
      } else if b == id {
        assert a in db.users;
      }
    }
  }

  // ---------------------------------------------------------------------------
  // signin

  const InvalidEmailMessage := "Invalid email"
  const IncorrectPasswordMessage := "Incorrect Password"
  const NotActivatedMessage := "Account not activated. Please contact admin for activation"

  /** The gate: the user's FIRST activation record exists and is not
      completed. A user without any activation record is not blocked. */
  predicate Blocked(db: Db, userId: UserId) {
    var k := FirstWhere(db.activations, (a: CodeRecord) => a.userId == userId);
    k >= 0 && !db.activations[k].completed
  }

  /** `signin`: unknown email, wrong password, blocked account, in that
      order; on success a refresh token is stored for the user. */
  function Signin(db: Db, email: string, password: string, token: string): (r: Result<(Db, UserId)>)
    requires EmailsUnique(db.users) && token !in db.persistences
    ensures !EmailTaken(db.users, email) ==> r == Err(BadRequest(InvalidEmailMessage))
    ensures EmailTaken(db.users, email) ==>
      var id := UserByEmail(db.users, email).value;
      && (!PasswordMatches(password, db.users[id].password) ==> r == Err(BadRequest(IncorrectPasswordMessage)))
      && (PasswordMatches(password, db.users[id].password) && Blocked(db, id)
          ==> r == Err(Unauthorized(NotActivatedMessage)))
    ensures r.Ok? <==> exists id :: (id in db.users && db.users[id].email == email
      && PasswordMatches(password, db.users[id].password) && !Blocked(db, id))
    ensures r.Ok? ==>
      && r.value.1 in db.users && db.users[r.value.1].email == email
      && r.value.0 == db.(persistences := db.persistences[token := r.value.1])
  {
    match UserByEmail(db.users, email)
    case None => Err(BadRequest(InvalidEmailMessage))
    case Some(id) =>
      if !PasswordMatches(password, db.users[id].password) then Err(BadRequest(IncorrectPasswordMessage))
      else if Blocked(db, id) then Err(Unauthorized(NotActivatedMessage))
      else Ok((StoreToken(db, token, id), id))
  }

  /** Every activation belongs to an existing user (the foreign key). */
  predicate ActivationsOwned(db: Db) {
    forall i :: 0 <= i < |db.activations| ==> db.activations[i].userId in db.users
  }

  /** A newly signed-up account cannot sign in until it is activated. */
  lemma SignupBlocksSignin(db: Db, f: SignupForm, id: UserId, token: string, draw: real,
                           profileSaved: bool, now: Timestamp, token2: string)
    requires id !in db.users && token !in db.persistences && 0.0 <= draw < 1.0
    requires EmailsUnique(db.users) && ActivationsOwned(db)
    requires Signup(db, f, id, token, draw, profileSaved, now).Ok?
    requires token2 !in Signup(db, f, id, token, draw, profileSaved, now).value.0.persistences
    ensures var after := Signup(db, f, id, token, draw, profileSaved, now).value.0;
      EmailsUnique(after.users)
      && Signin(after, f.email, f.password, token2) == Err(Unauthorized(NotActivatedMessage))
  {
    SignupKeepsEmailsUnique(db, f, id, token, draw, profileSaved, now);
    var after := Signup(db, f, id, token, draw, profileSaved, now).value.0;
    var mine := (a: CodeRecord) => a.userId == id;
    var n := |db.activations|;
    assert forall i :: 0 <= i < n ==> !mine(after.activations[i]) by {
      forall i | 0 <= i < n ensures !mine(after.activations[i]) {
        assert after.activations[i] == db.activations[i];
      }
    }
    assert mine(after.activations[n]);
    assert FirstWhere(after.activations, mine) == n;
    assert UserByEmail(after.users, f.email) == Some(id);
  }

  /** A user with no activation record at all signs in with the right
      password. */
  lemma NoActivationMaySignIn(db: Db, id: UserId, password: string, token: string)
    requires EmailsUnique(db.users) && token !in db.persistences
    requires id in db.users && PasswordMatches(password, db.users[id].password)
    requires forall i :: 0 <= i < |db.activations| ==> db.activations[i].userId != id
    ensures Signin(db, db.users[id].email, password, token) == Ok((StoreToken(db, token, id), id))
  {
    assert UserByEmail(db.users, db.users[id].email) == Some(id);
    assert FirstWhere(db.activations, (a: CodeRecord) => a.userId == id) == -1;
  }

  // ---------------------------------------------------------------------------
  // Activation

  const AdminActivateMessage := "Only admins can activate accounts"
  const NoPendingMessage := "No pending activation found for this user"
  const InvalidCodeMessage := "Invalid or expired activation code"

  /** `activateAccountByAdmin`: admin first, then the user's first pending
      activation is completed. */
  function ActivateAccountByAdmin(db: Db, userId: UserId, adminId: UserId, now: Timestamp): (r: Result<Db>)
    ensures !Users.IsAdmin(db, adminId) ==> r == Err(Forbidden(AdminActivateMessage))
    ensures Users.IsAdmin(db, adminId) && (forall i :: 0 <= i < |db.activations| ==> !PendingFor(db.activations[i], userId))
      ==> r == Err(BadRequest(NoPendingMessage))
    ensures r.Ok? <==>
      && Users.IsAdmin(db, adminId)
      && exists i :: 0 <= i < |db.activations| && PendingFor(db.activations[i], userId)
    ensures r.Ok? ==>
      var k := FirstWhere(db.activations, (a: CodeRecord) => PendingFor(a, userId));
      && r.value == db.(activations := r.value.activations)
      && 0 <= k < |db.activations|
      && r.value.activations == Complete(db.activations, k, now)
  {
    if !Users.IsAdmin(db, adminId) then Err(Forbidden(AdminActivateMessage))
    else
      var k := FirstWhere(db.activations, (a: CodeRecord) => PendingFor(a, userId));
      if k == -1 then Err(BadRequest(NoPendingMessage))
      else Ok(db.(activations := Complete(db.activations, k, now)))
  }

  /** After an admin activates a user, the sign-in gate lets them through. */
  lemma {:induction false} AdminActivationOpensGate(db: Db, userId: UserId, adminId: UserId, now: Timestamp)
    requires ActivateAccountByAdmin(db, userId, adminId, now).Ok?
    ensures !Blocked(ActivateAccountByAdmin(db, userId, adminId, now).value, userId)
  {
    var after := ActivateAccountByAdmin(db, userId, adminId, now).value;
    var mine := (a: CodeRecord) => a.userId == userId;
    var pending := (a: CodeRecord) => PendingFor(a, userId);
    var k := FirstWhere(db.activations, pending);
    var f := FirstWhere(db.activations, mine);
    assert mine(db.activations[k]);
    assert 0 <= f <= k;
    FirstWhereAgrees(db.activations, after.activations, mine);
    assert FirstWhere(after.activations, mine) == f;
    if f < k {
      assert !pending(db.activations[f]);
      assert after.activations[f] == db.activations[f];
    }
  }

  /** Two tables that agree on `keep` have the same first match. */
  lemma {:induction false} FirstWhereAgrees(a: seq<CodeRecord>, b: seq<CodeRecord>, keep: CodeRecord -> bool)
    requires |a| == |b|
    requires forall i :: 0 <= i < |a| ==> keep(a[i]) == keep(b[i])
    ensures FirstWhere(a, keep) == FirstWhere(b, keep)
    decreases |a|
  {
    if |a| > 0 && !keep(a[0]) {
      FirstWhereAgrees(a[1..], b[1..], keep);
    }
  }

  /** `activateAccountWithCode`: the first pending activation with the code is
      completed and a refresh token is stored for its user. */
  function ActivateAccountWithCode(db: Db, code: string, token: string, now: Timestamp): (r: Result<(Db, UserId)>)
    requires token !in db.persistences
    ensures r.Err? <==> forall i :: 0 <= i < |db.activations| ==> !PendingCode(db.activations[i], code)
    ensures r.Err? ==> r.error == BadRequest(InvalidCodeMessage)
    ensures r.Ok? ==>
      var k := FirstWhere(db.activations, (a: CodeRecord) => PendingCode(a, code));
      && 0 <= k < |db.activations|
      && r.value.1 == db.activations[k].userId
      && r.value.0 == db.(activations := Complete(db.activations, k, now),
                          persistences := db.persistences[token := r.value.1])
  {
    var k := FirstWhere(db.activations, (a: CodeRecord) => PendingCode(a, code));
    if k == -1 then Err(BadRequest(InvalidCodeMessage))
    else
      var userId := db.activations[k].userId;
      Ok((StoreToken(db.(activations := Complete(db.activations, k, now)), token, userId), userId))
  }

  /** A code held by one pending activation works once: the second attempt is
      refused. */
  lemma ActivationCodeSingleUse(db: Db, code: string, token: string, now: Timestamp, token2: string,
                                later: Timestamp)
    requires token !in db.persistences
    requires forall i, j :: (0 <= i < |db.activations| && 0 <= j < |db.activations|
      && PendingCode(db.activations[i], code) && PendingCode(db.activations[j], code)) ==> i == j
    requires ActivateAccountWithCode(db, code, token, now).Ok?
    requires token2 !in ActivateAccountWithCode(db, code, token, now).value.0.persistences
    ensures ActivateAccountWithCode(ActivateAccountWithCode(db, code, token, now).value.0, code, token2, later)
      == Err(BadRequest(InvalidCodeMessage))
  {
    var after := ActivateAccountWithCode(db, code, token, now).value.0;
    var k := FirstWhere(db.activations, (a: CodeRecord) => PendingCode(a, code));
    forall i | 0 <= i < |after.activations| ensures !PendingCode(after.activations[i], code) {
      if i != k {
        assert after.activations[i] == db.activations[i];
      }
    }
  }

  // ---------------------------------------------------------------------------
  // Password reset

  const InvalidEmailResetMessage := "Invalid Email"
  const InvalidResetCodeMessage := "Invalid or expired reset code"

  /** `forgetPassword`: an unknown email is refused; otherwise a pending
      reminder with a six-digit code is appended for the user. */
  function ForgetPassword(db: Db, email: string, draw: real): (r: Result<Db>)
    requires EmailsUnique(db.users) && 0.0 <= draw < 1.0
    ensures r.Err? <==> !EmailTaken(db.users, email)
    ensures r.Err? ==> r.error == BadRequest(InvalidEmailResetMessage)
    ensures r.Ok? ==>
      && r.value == db.(reminders := r.value.reminders)
      && |r.value.reminders| == |db.reminders| + 1
      && r.value.reminders[..|db.reminders|] == db.reminders
      && var added := r.value.reminders[|db.reminders|];
         !added.completed && added.userId in db.users && db.users[added.userId].email == email
         && added.code == CodeText(draw)
         && |added.code| == 6
  {
    match UserByEmail(db.users, email)
    case None => Err(BadRequest(InvalidEmailResetMessage))
    case Some(id) =>
      Ok(db.(reminders := AddPending(db.reminders, id, CodeText(draw))))
  }

  /** `resetPassword`: the first pending reminder with the code names the
      user; the password is rehashed (a user that no longer exists makes the
      update fail with Prisma's record-not-found) and the reminder is
      completed. No expiry is checked. */
  function ResetPassword(db: Db, code: string, password: string, now: Timestamp): (r: Result<Db>)
    ensures (forall i :: 0 <= i < |db.reminders| ==> !PendingCode(db.reminders[i], code))
      ==> r == Err(BadRequest(InvalidResetCodeMessage))
    ensures r.Ok? ==>
      var k := FirstWhere(db.reminders, (a: CodeRecord) => PendingCode(a, code));
      var userId := db.reminders[k].userId;
      && 0 <= k < |db.reminders|
      && userId in db.users
      && r.value == db.(users := r.value.users, reminders := Complete(db.reminders, k, now))
      && r.value.users.Keys == db.users.Keys
      && PasswordMatches(password, r.value.users[userId].password)
      && r.value.users[userId] == db.users[userId].(password := r.value.users[userId].password, updatedAt := now)
      && (forall u :: u in db.users && u != userId ==> r.value.users[u] == db.users[u])
    ensures r.Err? ==> r.error == BadRequest(InvalidResetCodeMessage) || r.error == Database("P2025")
    ensures var k := FirstWhere(db.reminders, (a: CodeRecord) => PendingCode(a, code));
      r.Ok? <==> k != -1 && db.reminders[k].userId in db.users
  {
    var k := FirstWhere(db.reminders, (a: CodeRecord) => PendingCode(a, code));
    if k == -1 then Err(BadRequest(InvalidResetCodeMessage))
    else
      var userId := db.reminders[k].userId;
      if userId !in db.users then Err(Database("P2025"))
      else
        var u := db.users[userId].(password := Bcrypt(password), updatedAt := now);
        Ok(db.(users := db.users[userId := u], reminders := Complete(db.reminders, k, now)))
  }

  /** A reminder `forgetPassword` appends is what `resetPassword` consumes:
      when no earlier pending reminder carries the same six digits, the code
      sent by mail resets the password of the user who asked, and the
      reminder is completed. */
  lemma ForgetThenReset(db: Db, email: string, draw: real, password: string, now: Timestamp)
    requires EmailsUnique(db.users) && 0.0 <= draw < 1.0
    requires ForgetPassword(db, email, draw).Ok?
    requires forall i :: 0 <= i < |db.reminders| ==> !PendingCode(db.reminders[i], CodeText(draw))
    ensures var after := ForgetPassword(db, email, draw).value;
      var userId := after.reminders[|db.reminders|].userId;
      var reset := ResetPassword(after, CodeText(draw), password, now);
      && reset.Ok?
      && userId in reset.value.users && reset.value.users[userId].email == email
      && PasswordMatches(password, reset.value.users[userId].password)
      && reset.value.reminders[|db.reminders|].completed
  {
    var after := ForgetPassword(db, email, draw).value;
    var code := CodeText(draw);
    var k := FirstWhere(after.reminders, (a: CodeRecord) => PendingCode(a, code));
    assert PendingCode(after.reminders[|db.reminders|], code);
    assert forall i :: 0 <= i < |db.reminders| ==> after.reminders[i] == db.reminders[i];
    assert k == |db.reminders|;
  }

  /** After a reset, the new password opens the account, and the code is
      spent when no other pending reminder shares it. */
  lemma ResetThenSignin(db: Db, code: string, password: string, now: Timestamp, token: string,
                        again: string, later: Timestamp)
    requires EmailsUnique(db.users)
    requires ResetPassword(db, code, password, now).Ok?
    requires forall i, j :: (0 <= i < |db.reminders| && 0 <= j < |db.reminders|
      && PendingCode(db.reminders[i], code) && PendingCode(db.reminders[j], code)) ==> i == j
    ensures var after := ResetPassword(db, code, password, now).value;
      var userId := db.reminders[FirstWhere(db.reminders, (a: CodeRecord) => PendingCode(a, code))].userId;
      && EmailsUnique(after.users)
      && (token !in after.persistences && !Blocked(after, userId) ==>
            Signin(after, after.users[userId].email, password, token).Ok?)
      && ResetPassword(after, code, again, later) == Err(BadRequest(InvalidResetCodeMessage))
  {
    var after := ResetPassword(db, code, password, now).value;
    var k := FirstWhere(db.reminders, (a: CodeRecord) => PendingCode(a, code));
    var userId := db.reminders[k].userId;
    assert EmailsUnique(after.users) by {
      forall a, b | a in after.users && b in after.users && a != b
        ensures after.users[a].email != after.users[b].email
      {
        assert after.users[a].email == db.users[a].email;
        assert after.users[b].email == db.users[b].email;
      }
    }
    forall i | 0 <= i < |after.reminders| ensures !PendingCode(after.reminders[i], code) {
      if i != k {
        assert after.reminders[i] == db.reminders[i];
      }
    }
  }

  // ---------------------------------------------------------------------------
  // Refresh tokens

  const InvalidTokenMessage := "Invalid refresh token"
  const UserNotFoundMessage := "User not found"

  /** `verifyRefreshToken`: the user a live token names. */
  function VerifyRefreshToken(db: Db, token: string): (r: Option<UserId>)
    ensures r.Some? <==> token in db.persistences
    ensures r.Some? ==> r.value == db.persistences[token]
  {
    if token in db.persistences then Some(db.persistences[token]) else None
  }

  /** `removeRefreshToken`: `deleteMany`, so an absent token is no error. */
  function RemoveRefreshToken(db: Db, token: string): (r: Db)
    ensures r == db.(persistences := r.persistences)
    ensures VerifyRefreshToken(r, token).None?
    ensures forall t :: t != token ==> VerifyRefreshToken(r, t) == VerifyRefreshToken(db, t)
  {
    db.(persistences := db.persistences - {token})
  }

  /** Removing a token twice is removing it once; removing an absent token
      changes nothing. */
  lemma RemoveRefreshTokenIdempotent(db: Db, token: string)
    ensures RemoveRefreshToken(RemoveRefreshToken(db, token), token) == RemoveRefreshToken(db, token)
    ensures token !in db.persistences ==> RemoveRefreshToken(db, token) == db
  {
    var once := RemoveRefreshToken(db, token);
    assert once.persistences - {token} == once.persistences;
    if token !in db.persistences {
      assert db.persistences - {token} == db.persistences;
    }
  }

  /** `refreshToken`: the presented token must name a user (id 0 is falsy
      and counts as none) who still exists; a fresh token is stored for that
      user and the presented one removed. */
  function RefreshToken(db: Db, token: string, newToken: string): (r: Result<(Db, UserId)>)
    requires newToken !in db.persistences
    ensures !Truthy(VerifyRefreshToken(db, token)) ==> r == Err(Unauthorized(InvalidTokenMessage))
    ensures Truthy(VerifyRefreshToken(db, token)) && db.persistences[token] !in db.users
      ==> r == Err(NotFound(UserNotFoundMessage))
    ensures r.Ok? <==> token in db.persistences && db.persistences[token] != 0 && db.persistences[token] in db.users
    ensures r.Ok? ==>
      && r.value.1 == db.persistences[token]
      && r.value.0 == db.(persistences := r.value.0.persistences)
      && VerifyRefreshToken(r.value.0, token).None?
      && VerifyRefreshToken(r.value.0, newToken) == Some(r.value.1)
      && forall t :: t != token && t != newToken ==> VerifyRefreshToken(r.value.0, t) == VerifyRefreshToken(db, t)
  {
    var found := VerifyRefreshToken(db, token);
    if !Truthy(found) then Err(Unauthorized(InvalidTokenMessage))
    else if found.value !in db.users then Err(NotFound(UserNotFoundMessage))
    else Ok((RemoveRefreshToken(StoreToken(db, newToken, found.value), token), found.value))
  }

  /** A rotated token cannot be presented again. */
  lemma RotatedTokenIsDead(db: Db, token: string, newToken: string, newToken2: string)
    requires newToken !in db.persistences
    requires RefreshToken(db, token, newToken).Ok?
    requires newToken2 !in RefreshToken(db, token, newToken).value.0.persistences
    ensures RefreshToken(RefreshToken(db, token, newToken).value.0, token, newToken2) == Err(Unauthorized(InvalidTokenMessage))
  {
  }
}

=== FILE: cart.dfy ===
/** Cart management of the products service: the cart is the JSON payload
    stored under the user's id, modelled as a sequence of lines. */
module Cart {
  import opened Common
  import opened Store

  const ProductUnavailableMessage := "Product not found or not available"
  const StockMessage := "Insufficient stock for this product"
  const CartNotFoundMessage := "Cart not found"
  const NotInCartMessage := "Product not found in cart"

  /** `cartData.items.findIndex(...)` on a payload without `items`. */
  const ItemsMissing := Internal("Cannot read properties of undefined (reading 'findIndex')")

  // ---------------------------------------------------------------------------
  // Lines and their invariants

  /** `items.findIndex(item => item.productId === productId)`. */
  function FindIndex(lines: seq<CartLine>, productId: ProductId): (k: int)
    ensures -1 <= k < |lines|
    ensures k == -1 <==> forall i :: 0 <= i < |lines| ==> lines[i].productId != productId
    ensures k >= 0 ==> lines[k].productId == productId
    ensures k >= 0 ==> forall i :: 0 <= i < k ==> lines[i].productId != productId
    decreases |lines|
  {
    if |lines| == 0 then -1
    else if lines[0].productId == productId then 0
    else
      var k := FindIndex(lines[1..], productId);
      if k == -1 then -1 else k + 1
  }

  predicate InCart(lines: seq<CartLine>, productId: ProductId) {
    exists i :: 0 <= i < |lines| && lines[i].productId == productId
  }

  /** No product appears on two lines. */
  predicate DistinctProducts(lines: seq<CartLine>) {
    forall i, j :: 0 <= i < j < |lines| ==> lines[i].productId != lines[j].productId
  }

  /** The shape every cart built through the validated HTTP API keeps:
      distinct products, positive quantities. */
  predicate WellFormed(lines: seq<CartLine>) {
    DistinctProducts(lines) && forall i :: 0 <= i < |lines| ==> lines[i].quantity > 0
  }

  /** Total quantity of `productId` over all lines: the cart read as a bag. */
  function QuantityOf(lines: seq<CartLine>, productId: ProductId): int
    decreases |lines|
  {
    if |lines| == 0 then 0
    else
      (if lines[0].productId == productId then lines[0].quantity else 0)
      + QuantityOf(lines[1..], productId)
  }

  lemma {:induction false} QuantityOfAppend(a: seq<CartLine>, b: seq<CartLine>, p: ProductId)
    ensures QuantityOf(a + b, p) == QuantityOf(a, p) + QuantityOf(b, p)
    decreases |a|
  {
    if |a| == 0 {
      assert a + b == b;
    } else {
      assert (a + b)[1..] == a[1..] + b;
      QuantityOfAppend(a[1..], b, p);
    }
  }

  function Contribution(l: CartLine, p: ProductId): int {
    if l.productId == p then l.quantity else 0
  }

  lemma {:induction false} QuantityOfAbsent(lines: seq<CartLine>, p: ProductId)
    requires !InCart(lines, p)
    ensures QuantityOf(lines, p) == 0
    decreases |lines|
  {
    if |lines| > 0 {
      assert !InCart(lines[1..], p) by {
        forall i | 0 <= i < |lines[1..]|
          ensures lines[1..][i].productId != p
        {
          assert lines[1..][i] == lines[i + 1];
        }
      }
      QuantityOfAbsent(lines[1..], p);
    }
  }

  /** Splits the lines around position `k`. */
  lemma SplitAt(lines: seq<CartLine>, k: int)
    requires 0 <= k < |lines|
    ensures lines == lines[..k] + [lines[k]] + lines[k + 1..]
  {
  }

  lemma QuantityOfSingle(l: CartLine, p: ProductId)
    ensures QuantityOf([l], p) == Contribution(l, p)
  {
    assert [l][1..] == [];
  }

  /** Replacing line `k` changes the count by the difference of the two lines. */
  lemma QuantityOfReplace(lines: seq<CartLine>, k: int, l: CartLine, p: ProductId)
    requires 0 <= k < |lines|
    ensures QuantityOf(lines[k := l], p) == QuantityOf(lines, p) - Contribution(lines[k], p) + Contribution(l, p)
  {
    SplitAt(lines, k);
    assert lines[k := l] == lines[..k] + [l] + lines[k + 1..];
    QuantityOfAppend(lines[..k] + [lines[k]], lines[k + 1..], p);
    QuantityOfAppend(lines[..k], [lines[k]], p);
    QuantityOfAppend(lines[..k] + [l], lines[k + 1..], p);
    QuantityOfAppend(lines[..k], [l], p);
    QuantityOfSingle(lines[k], p);
    QuantityOfSingle(l, p);
  }

  /** Removing line `k` takes away exactly that line's contribution. */
  lemma QuantityOfRemove(lines: seq<CartLine>, k: int, p: ProductId)
    requires 0 <= k < |lines|
    ensures QuantityOf(lines[..k] + lines[k + 1..], p) == QuantityOf(lines, p) - Contribution(lines[k], p)
  {
    SplitAt(lines, k);
    QuantityOfAppend(lines[..k] + [lines[k]], lines[k + 1..], p);
    QuantityOfAppend(lines[..k], [lines[k]], p);
    QuantityOfAppend(lines[..k], lines[k + 1..], p);
    QuantityOfSingle(lines[k], p);
  }

  /** Removing a line of a cart with distinct products removes its product
      from the cart and keeps the rest distinct. */
  lemma RemoveAtDrops(lines: seq<CartLine>, k: int)
    requires 0 <= k < |lines|
    requires DistinctProducts(lines)
    ensures !InCart(lines[..k] + lines[k + 1..], lines[k].productId)
    ensures DistinctProducts(lines[..k] + lines[k + 1..])
  {
    var rest := lines[..k] + lines[k + 1..];
    assert forall i :: 0 <= i < |rest| ==> rest[i] == lines[if i < k then i else i + 1];
  }

  /** In a cart with distinct products, a line's quantity is its product's count. */
  lemma QuantityOfDistinct(lines: seq<CartLine>, k: int)
    requires 0 <= k < |lines|
    requires DistinctProducts(lines)
    ensures QuantityOf(lines, lines[k].productId) == lines[k].quantity
  {
    QuantityOfRemove(lines, k, lines[k].productId);
    RemoveAtDrops(lines, k);
    QuantityOfAbsent(lines[..k] + lines[k + 1..], lines[k].productId);
  }

  /** The payload of the user's cart as the mutating operations see it. */
  function StoredLines(db: Db, userId: UserId): Option<seq<CartLine>> {
    if userId in db.carts then db.carts[userId].items else Some([])
  }

  function RemoveAt(lines: seq<CartLine>, k: int): (r: seq<CartLine>)
    requires 0 <= k < |lines|
    ensures |r| == |lines| - 1
    ensures forall i :: 0 <= i < k ==> r[i] == lines[i]
    ensures forall i :: k <= i < |r| ==> r[i] == lines[i + 1]
  {
    lines[..k] + lines[k + 1..]
  }

  // ---------------------------------------------------------------------------
  // addToCart

  /** The payload after adding `quantity` of `productId`: an existing line for
      the product absorbs the quantity (its variant and options stay), otherwise
      a new line goes at the end. */
  function MergeLine(lines: seq<CartLine>, productId: ProductId, quantity: int,
                     variant: Option<string>, options: Option<string>): (r: seq<CartLine>)
    ensures InCart(lines, productId) ==> |r| == |lines|
    ensures !InCart(lines, productId) ==>
      r == lines + [CartLine(productId, quantity, variant, options)]
    ensures forall i :: 0 <= i < |lines| && lines[i].productId != productId ==> r[i] == lines[i]
    ensures InCart(lines, productId) ==>
      var k := FindIndex(lines, productId);
      && r[k] == CartLine(productId, lines[k].quantity + quantity, lines[k].variant, lines[k].options)
      && forall i :: 0 <= i < |lines| && i != k ==> r[i] == lines[i]
  {
    var k := FindIndex(lines, productId);
    if k >= 0 then lines[k := lines[k].(quantity := lines[k].quantity + quantity)]
    else lines + [CartLine(productId, quantity, variant, options)]
  }

  /** `addToCart`: the product check precedes any cart access; the stock check
      compares the stock with the requested increment only. */
  function AddToCart(db: Db, userId: UserId, productId: ProductId, quantity: int,
                     variant: Option<string>, options: Option<string>): (r: Result<Db>)
    ensures !ActiveProduct(db, productId) ==> r == Err(NotFound(ProductUnavailableMessage))
    ensures ActiveProduct(db, productId) && StockShort(db.products[productId], quantity) ==>
      r == Err(BadRequest(StockMessage))
    ensures r.Ok? <==>
      ActiveProduct(db, productId) && !StockShort(db.products[productId], quantity)
      && StoredLines(db, userId).Some?
    ensures r.Ok? ==> r.value == db.(carts := db.carts[userId :=
      CartRecord(Some(MergeLine(StoredLines(db, userId).value, productId, quantity, variant, options)))])
  {
    if !ActiveProduct(db, productId) then Err(NotFound(ProductUnavailableMessage))
    else if StockShort(db.products[productId], quantity) then Err(BadRequest(StockMessage))
    else match StoredLines(db, userId)
      case None => Err(ItemsMissing)
      case Some(lines) =>
        Ok(db.(carts := db.carts[userId :=
          CartRecord(Some(MergeLine(lines, productId, quantity, variant, options)))]))
  }

  /** Merging adds the quantity to the product's bag count and leaves every
      other product's count alone. */
  lemma MergeLineQuantities(lines: seq<CartLine>, productId: ProductId, quantity: int,
                             variant: Option<string>, options: Option<string>, p: ProductId)
    ensures QuantityOf(MergeLine(lines, productId, quantity, variant, options), p)
      == QuantityOf(lines, p) + (if p == productId then quantity else 0)
  {
    var k := FindIndex(lines, productId);
    if k >= 0 {
      QuantityOfReplace(lines, k, lines[k].(quantity := lines[k].quantity + quantity), p);
    } else {
      var added := CartLine(productId, quantity, variant, options);
      QuantityOfAppend(lines, [added], p);
      QuantityOfSingle(added, p);
    }
  }

  lemma MergeLineKeepsDistinct(lines: seq<CartLine>, productId: ProductId, quantity: int,
                               variant: Option<string>, options: Option<string>)
    requires WellFormed(lines)
    requires quantity > 0
    ensures WellFormed(MergeLine(lines, productId, quantity, variant, options))
  {
  }

  /** Adding a validated request (positive id and quantity) keeps a
      well-formed cart well-formed and grows the product's count by exactly the
      requested quantity; other products' counts are unchanged. */
  lemma AddToCartBag(db: Db, userId: UserId, productId: ProductId, quantity: int,
                     variant: Option<string>, options: Option<string>, p: ProductId)
    requires productId > 0 && quantity > 0
    requires StoredLines(db, userId).Some? && WellFormed(StoredLines(db, userId).value)
    requires AddToCart(db, userId, productId, quantity, variant, options).Ok?
    ensures var after := StoredLines(AddToCart(db, userId, productId, quantity, variant, options).value, userId);
      && after.Some?
      && WellFormed(after.value)
      && QuantityOf(after.value, p)
         == QuantityOf(StoredLines(db, userId).value, p) + (if p == productId then quantity else 0)
  {
    var lines := StoredLines(db, userId).value;
    MergeLineKeepsDistinct(lines, productId, quantity, variant, options);
    MergeLineQuantities(lines, productId, quantity, variant, options, p);
  }

  // ---------------------------------------------------------------------------
  // updateCartItem

  /** `updateCartItem`: errors in the order no cart, product not in the cart,
      product unavailable, insufficient stock. A quantity of 0 is falsy, so it
      skips the stock check, and it removes the line. */
  function UpdateCartItem(db: Db, userId: UserId, productId: ProductId,
                          quantity: Option<int>, variant: Option<string>): (r: Result<Db>)
    ensures userId !in db.carts ==> r == Err(NotFound(CartNotFoundMessage))
    ensures userId in db.carts && db.carts[userId].items.Some?
            && !InCart(db.carts[userId].items.value, productId) ==>
      r == Err(NotFound(NotInCartMessage))
    ensures userId in db.carts && db.carts[userId].items.Some?
            && InCart(db.carts[userId].items.value, productId) && !ActiveProduct(db, productId) ==>
      r == Err(NotFound(ProductUnavailableMessage))
    ensures userId in db.carts && db.carts[userId].items.None? ==> r == Err(ItemsMissing)
    ensures userId in db.carts && db.carts[userId].items.Some?
            && InCart(db.carts[userId].items.value, productId) && ActiveProduct(db, productId)
            && Truthy(quantity) && StockShort(db.products[productId], quantity.value) ==>
      r == Err(BadRequest(StockMessage))
    ensures r.Ok? <==>
      && userId in db.carts && db.carts[userId].items.Some?
      && InCart(db.carts[userId].items.value, productId)
      && ActiveProduct(db, productId)
      && !(Truthy(quantity) && StockShort(db.products[productId], quantity.value))
    ensures r.Ok? ==> r.value.carts.Keys == db.carts.Keys
    ensures r.Ok? ==> r.value == db.(carts := r.value.carts)
    ensures r.Ok? ==> forall u :: u in db.carts && u != userId ==> r.value.carts[u] == db.carts[u]
  {
    if userId !in db.carts then Err(NotFound(CartNotFoundMessage))
    else match db.carts[userId].items
      case None => Err(ItemsMissing)
      case Some(lines) =>
        var k := FindIndex(lines, productId);
        if k == -1 then Err(NotFound(NotInCartMessage))
        else if !ActiveProduct(db, productId) then Err(NotFound(ProductUnavailableMessage))
        else if Truthy(quantity) && StockShort(db.products[productId], quantity.value) then
          Err(BadRequest(StockMessage))
        else
          var lines' := if quantity == Some(0) then RemoveAt(lines, k) else lines[k := Revised(lines[k], quantity, variant)];
          Ok(db.(carts := db.carts[userId := CartRecord(Some(lines'))]))
  }

  /** The line after an update: a given quantity and a given variant replace
      the stored ones, the rest of the line stays. */
  function Revised(l: CartLine, quantity: Option<int>, variant: Option<string>): (r: CartLine)
    ensures r.productId == l.productId && r.options == l.options
    ensures r.quantity == quantity.GetOr(l.quantity)
    ensures r.variant == (if variant.Some? then variant else l.variant)
  {
    var requantified := if quantity.Some? then l.(quantity := quantity.value) else l;
    if variant.Some? then requantified.(variant := variant) else requantified
  }

  /** What a successful update stores: the first line of the product is
      dropped for quantity 0 and revised otherwise; with no quantity only the
      variant (when given) changes. */
  lemma UpdateCartItemStores(db: Db, userId: UserId, productId: ProductId,
                             quantity: Option<int>, variant: Option<string>)
    requires userId in db.carts && db.carts[userId].items.Some?
    requires UpdateCartItem(db, userId, productId, quantity, variant).Ok?
    ensures var lines := db.carts[userId].items.value;
      var k := FindIndex(lines, productId);
      && 0 <= k < |lines| && lines[k].productId == productId
      && UpdateCartItem(db, userId, productId, quantity, variant).value.carts[userId].items
         == Some(if quantity == Some(0) then lines[..k] + lines[k + 1..]
                 else lines[k := Revised(lines[k], quantity, variant)])
  {
  }

  /** On a cart with distinct products the updated product's count becomes
      the requested quantity (0 removes its line); other products keep their
      counts. */
  lemma UpdateCartItemBag(db: Db, userId: UserId, productId: ProductId,
                          quantity: int, variant: Option<string>, p: ProductId)
    requires userId in db.carts && db.carts[userId].items.Some?
    requires DistinctProducts(db.carts[userId].items.value)
    requires UpdateCartItem(db, userId, productId, Some(quantity), variant).Ok?
    ensures var after := UpdateCartItem(db, userId, productId, Some(quantity), variant).value.carts[userId].items;
      && after.Some?
      && DistinctProducts(after.value)
      && QuantityOf(after.value, p)
         == (if p == productId then quantity else QuantityOf(db.carts[userId].items.value, p))
      && (quantity == 0 ==> !InCart(after.value, productId))
  {
    var lines := db.carts[userId].items.value;
    UpdateCartItemStores(db, userId, productId, Some(quantity), variant);
    ReviseLineBag(lines, FindIndex(lines, productId), quantity, variant, p);
  }

  /** Revising line `k` of a cart with distinct products sets that product's
      count to the new quantity; quantity 0 drops the line. */
  lemma ReviseLineBag(lines: seq<CartLine>, k: int, quantity: int, variant: Option<string>, p: ProductId)
    requires 0 <= k < |lines|
    requires DistinctProducts(lines)
    ensures var after := if quantity == 0 then lines[..k] + lines[k + 1..]
                         else lines[k := Revised(lines[k], Some(quantity), variant)];
      && DistinctProducts(after)
      && QuantityOf(after, p) == (if p == lines[k].productId then quantity else QuantityOf(lines, p))
      && (quantity == 0 ==> !InCart(after, lines[k].productId))
  {
    QuantityOfDistinct(lines, k);
    if quantity == 0 {
      QuantityOfRemove(lines, k, p);
      RemoveAtDrops(lines, k);
    } else {
      QuantityOfReplace(lines, k, Revised(lines[k], Some(quantity), variant), p);
    }
  }

  /** The validated update request carries no quantity or a positive one, so
      over HTTP an update never removes a line and keeps the cart well-formed. */
  lemma UpdateCartItemKeepsWellFormed(db: Db, userId: UserId, productId: ProductId,
                                      quantity: Option<int>, variant: Option<string>)
    requires quantity.Some? ==> quantity.value > 0
    requires userId in db.carts && db.carts[userId].items.Some?
    requires WellFormed(db.carts[userId].items.value)
    requires UpdateCartItem(db, userId, productId, quantity, variant).Ok?
    ensures var after := UpdateCartItem(db, userId, productId, quantity, variant).value.carts[userId].items;
      && after.Some?
      && |after.value| == |db.carts[userId].items.value|
      && WellFormed(after.value)
  {
  }

  // ---------------------------------------------------------------------------
  // removeFromCart and clearCart

  /** `removeFromCart`: splices out the first line for the product. */
  function RemoveFromCart(db: Db, userId: UserId, productId: ProductId): (r: Result<Db>)
    ensures userId !in db.carts ==> r == Err(NotFound(CartNotFoundMessage))
    ensures userId in db.carts && db.carts[userId].items.Some?
            && !InCart(db.carts[userId].items.value, productId) ==>
      r == Err(NotFound(NotInCartMessage))
    ensures userId in db.carts && db.carts[userId].items.None? ==> r == Err(ItemsMissing)
    ensures r.Ok? <==> userId in db.carts && db.carts[userId].items.Some?
                       && InCart(db.carts[userId].items.value, productId)
    ensures r.Ok? ==>
      var lines := db.carts[userId].items.value;
      exists k :: 0 <= k < |lines| && lines[k].productId == productId
        && (forall i :: 0 <= i < k ==> lines[i].productId != productId)
        && r.value == db.(carts := db.carts[userId := CartRecord(Some(lines[..k] + lines[k + 1..]))])
  {
    if userId !in db.carts then Err(NotFound(CartNotFoundMessage))
    else match db.carts[userId].items
      case None => Err(ItemsMissing)
      case Some(lines) =>
        var k := FindIndex(lines, productId);
        if k == -1 then Err(NotFound(NotInCartMessage))
        else Ok(db.(carts := db.carts[userId := CartRecord(Some(RemoveAt(lines, k)))]))
  }

  /** Removing takes the product's whole count out of a well-formed cart and
      keeps it well-formed; other products are untouched. */
  lemma RemoveFromCartBag(db: Db, userId: UserId, productId: ProductId, p: ProductId)
    requires userId in db.carts && db.carts[userId].items.Some?
    requires WellFormed(db.carts[userId].items.value)
    requires RemoveFromCart(db, userId, productId).Ok?
    ensures var after := RemoveFromCart(db, userId, productId).value.carts[userId].items;
      && after.Some?
      && WellFormed(after.value)
      && !InCart(after.value, productId)
      && QuantityOf(after.value, p)
         == (if p == productId then 0 else QuantityOf(db.carts[userId].items.value, p))
  {
    var lines := db.carts[userId].items.value;
    var k := FindIndex(lines, productId);
    var after := RemoveFromCart(db, userId, productId).value.carts[userId].items.value;
    assert after == lines[..k] + lines[k + 1..];
    RemoveAtDrops(lines, k);
    QuantityOfRemove(lines, k, p);
    QuantityOfDistinct(lines, k);
    assert forall i :: 0 <= i < |after| ==> after[i] == lines[if i < k then i else i + 1];
  }

  /** `clearCart`: Prisma's `delete` of a missing row raises P2025. */
  function ClearCart(db: Db, userId: UserId): (r: Result<Db>)
    ensures userId !in db.carts <==> r == Err(Database("P2025"))
    ensures r.Ok? ==> r.value.carts.Keys == db.carts.Keys - {userId}
    ensures r.Ok? ==> r.value == db.(carts := r.value.carts)
    ensures r.Ok? ==> forall u :: u in r.value.carts ==> r.value.carts[u] == db.carts[u]
  {
    if userId !in db.carts then Err(Database("P2025"))
    else Ok(db.(carts := db.carts - {userId}))
  }

  // ---------------------------------------------------------------------------
  // getCart

  datatype CartItem = CartItem(productId: ProductId, quantity: int, price: real, subtotal: real)

  datatype CartView = CartView(items: seq<CartItem>, total: real, count: int)

  /** Line details for the lines whose product still exists; the lookup does
      not filter on `is_active`. */
  function Details(products: map<ProductId, Product>, lines: seq<CartLine>): (r: seq<CartItem>)
    ensures |r| <= |lines|
    ensures forall i :: 0 <= i < |r| ==> r[i].productId in products
    decreases |lines|
  {
    if |lines| == 0 then [] else Detail(products, lines[0]) + Details(products, lines[1..])
  }

  function Detail(products: map<ProductId, Product>, l: CartLine): (r: seq<CartItem>)
    ensures |r| <= 1
  {
    if l.productId in products
    then [CartItem(l.productId, l.quantity, products[l.productId].price,
                   Times(products[l.productId].price, l.quantity))]
    else []
  }

  /** A line of a product that still exists, priced at the catalog price. */
  function Item(products: map<ProductId, Product>, l: CartLine): CartItem
    requires l.productId in products
  {
    CartItem(l.productId, l.quantity, products[l.productId].price,
             Times(products[l.productId].price, l.quantity))
  }

  /** The cart view lists exactly the lines whose product still exists, in
      cart order, each priced at the catalog price with subtotal
      price × quantity; `keep` is that existence test. */
  lemma {:induction false} DetailsAreLiveLines(products: map<ProductId, Product>, lines: seq<CartLine>,
                                               keep: CartLine -> bool)
    requires forall l :: keep(l) == (l.productId in products)
    ensures var live := Filter(lines, keep);
      var items := Details(products, lines);
      && |items| == |live|
      && forall i :: 0 <= i < |items| ==> live[i].productId in products && items[i] == Item(products, live[i])
    decreases |lines|
  {
    if |lines| > 0 {
      DetailsAreLiveLines(products, lines[1..], keep);
      var rest := Filter(lines[1..], keep);
      assert Filter(lines, keep) == (if keep(lines[0]) then [lines[0]] else []) + rest;
    }
  }

  function SumSubtotals(items: seq<CartItem>): real
    decreases |items|
  {
    if |items| == 0 then 0.0 else items[0].subtotal + SumSubtotals(items[1..])
  }

  function SumQuantities(items: seq<CartItem>): int
    decreases |items|
  {
    if |items| == 0 then 0 else items[0].quantity + SumQuantities(items[1..])
  }

  /** `getCart`: a missing cart reads as empty; the total and count fold over
      the surviving lines. */
  function GetCart(db: Db, userId: UserId): (v: CartView)
    ensures userId !in db.carts ==> v == CartView([], 0.0, 0)
    ensures userId in db.carts && db.carts[userId].items.None? ==> v == CartView([], 0.0, 0)
    ensures userId in db.carts && db.carts[userId].items.Some? ==>
      |v.items| <= |db.carts[userId].items.value|
    ensures forall i :: 0 <= i < |v.items| ==> v.items[i].productId in db.products
  {
    if userId !in db.carts then CartView([], 0.0, 0)
    else
      var items := Details(db.products, db.carts[userId].items.GetOr([]));
      CartView(items, SumSubtotals(items), SumQuantities(items))
  }

  lemma {:induction false} DetailsAppend(products: map<ProductId, Product>, a: seq<CartLine>, b: seq<CartLine>)
    ensures Details(products, a + b) == Details(products, a) + Details(products, b)
    decreases |a|
  {
    if |a| == 0 {
      assert a + b == b;
    } else {
      assert (a + b)[0] == a[0];
      assert (a + b)[1..] == a[1..] + b;
      calc {
        Details(products, a + b);
        Detail(products, a[0]) + Details(products, a[1..] + b);
        { DetailsAppend(products, a[1..], b); }
        Detail(products, a[0]) + (Details(products, a[1..]) + Details(products, b));
        (Detail(products, a[0]) + Details(products, a[1..])) + Details(products, b);
      }
    }
  }

  lemma {:induction false} SumsAppend(a: seq<CartItem>, b: seq<CartItem>)
    ensures SumSubtotals(a + b) == SumSubtotals(a) + SumSubtotals(b)
    ensures SumQuantities(a + b) == SumQuantities(a) + SumQuantities(b)
    decreases |a|
  {
    if |a| == 0 {
      assert a + b == b;
    } else {
      assert (a + b)[0] == a[0];
      assert (a + b)[1..] == a[1..] + b;
      SumsAppend(a[1..], b);
    }
  }

  /** What one line adds to the cart's total and count. */
  function LineSubtotal(products: map<ProductId, Product>, l: CartLine): real {
    if l.productId in products then Times(products[l.productId].price, l.quantity) else 0.0
  }

  function LineCount(products: map<ProductId, Product>, l: CartLine): int {
    if l.productId in products then l.quantity else 0
  }

  lemma DetailsSingle(products: map<ProductId, Product>, l: CartLine)
    ensures SumSubtotals(Details(products, [l])) == LineSubtotal(products, l)
    ensures SumQuantities(Details(products, [l])) == LineCount(products, l)
  {
    assert [l][1..] == [];
    assert Details(products, [l][1..]) == [];
  }

  /** The view's total and count over a concatenation of lines add up. */
  lemma ViewAppend(products: map<ProductId, Product>, a: seq<CartLine>, b: seq<CartLine>)
    ensures SumSubtotals(Details(products, a + b))
      == SumSubtotals(Details(products, a)) + SumSubtotals(Details(products, b))
    ensures SumQuantities(Details(products, a + b))
      == SumQuantities(Details(products, a)) + SumQuantities(Details(products, b))
  {
    DetailsAppend(products, a, b);
    SumsAppend(Details(products, a), Details(products, b));
  }

  /** Replacing line `k` changes total and count by the two lines' difference. */
  lemma ViewReplace(products: map<ProductId, Product>, lines: seq<CartLine>, k: int, l: CartLine)
    requires 0 <= k < |lines|
    ensures SumSubtotals(Details(products, lines[k := l]))
      == SumSubtotals(Details(products, lines)) - LineSubtotal(products, lines[k]) + LineSubtotal(products, l)
    ensures SumQuantities(Details(products, lines[k := l]))
      == SumQuantities(Details(products, lines)) - LineCount(products, lines[k]) + LineCount(products, l)
  {
    SplitAt(lines, k);
    assert lines[k := l] == lines[..k] + [l] + lines[k + 1..];
    ViewAppend(products, lines[..k] + [lines[k]], lines[k + 1..]);
    ViewAppend(products, lines[..k], [lines[k]]);
    ViewAppend(products, lines[..k] + [l], lines[k + 1..]);
    ViewAppend(products, lines[..k], [l]);
    DetailsSingle(products, lines[k]);
    DetailsSingle(products, l);
  }

  lemma MergeLineAppends(lines: seq<CartLine>, productId: ProductId, quantity: int,
                          variant: Option<string>, options: Option<string>)
    requires FindIndex(lines, productId) == -1
    ensures MergeLine(lines, productId, quantity, variant, options)
      == lines + [CartLine(productId, quantity, variant, options)]
  {
  }

  lemma RaisedLineSubtotal(products: map<ProductId, Product>, l: CartLine, quantity: int)
    requires l.productId in products
    ensures LineSubtotal(products, l.(quantity := l.quantity + quantity))
      == LineSubtotal(products, l) + Times(products[l.productId].price, quantity)
    ensures LineCount(products, l.(quantity := l.quantity + quantity)) == LineCount(products, l) + quantity
  {
    TimesAdd(products[l.productId].price, l.quantity, quantity);
  }

  /** Raising line `k` by `quantity` raises the view's count by that quantity
      and its total by the line's price × quantity. */
  lemma RaiseLineTotals(products: map<ProductId, Product>, lines: seq<CartLine>, k: int, quantity: int)
    requires 0 <= k < |lines| && lines[k].productId in products
    ensures var raised := Details(products, lines[k := lines[k].(quantity := lines[k].quantity + quantity)]);
      && SumQuantities(raised) == SumQuantities(Details(products, lines)) + quantity
      && SumSubtotals(raised)
         == SumSubtotals(Details(products, lines)) + Times(products[lines[k].productId].price, quantity)
  {
    var l := lines[k].(quantity := lines[k].quantity + quantity);
    ViewReplace(products, lines, k, l);
    RaisedLineSubtotal(products, lines[k], quantity);
    var whole := SumSubtotals(Details(products, lines));
    var previous := LineSubtotal(products, lines[k]);
    var raised := LineSubtotal(products, l);
    var extra := Times(products[lines[k].productId].price, quantity);
    assert raised == previous + extra;
    assert whole - previous + raised == whole + extra;
  }

  /** Appending a line for a known product raises the view's count by its
      quantity and its total by price × quantity. */
  lemma AppendLineTotals(products: map<ProductId, Product>, lines: seq<CartLine>, added: CartLine)
    requires added.productId in products
    ensures var appended := Details(products, lines + [added]);
      && SumQuantities(appended) == SumQuantities(Details(products, lines)) + added.quantity
      && SumSubtotals(appended)
         == SumSubtotals(Details(products, lines)) + Times(products[added.productId].price, added.quantity)
  {
    ViewAppend(products, lines, [added]);
    DetailsSingle(products, added);
  }

  /** Merging `quantity` of `productId` raises the view's count by that
      quantity and its total by price × quantity, whether the product merges
      into an existing line or opens a new one. */
  lemma MergeLineTotals(products: map<ProductId, Product>, lines: seq<CartLine>, productId: ProductId,
                        quantity: int, variant: Option<string>, options: Option<string>)
    requires productId in products
    ensures var merged := Details(products, MergeLine(lines, productId, quantity, variant, options));
      && SumQuantities(merged) == SumQuantities(Details(products, lines)) + quantity
      && SumSubtotals(merged)
         == SumSubtotals(Details(products, lines)) + Times(products[productId].price, quantity)
  {
    var k := FindIndex(lines, productId);
    if k >= 0 {
      assert MergeLine(lines, productId, quantity, variant, options)
        == lines[k := lines[k].(quantity := lines[k].quantity + quantity)];
      RaiseLineTotals(products, lines, k, quantity);
    } else {
      MergeLineAppends(lines, productId, quantity, variant, options);
      AppendLineTotals(products, lines, CartLine(productId, quantity, variant, options));
    }
  }

  /** Where the mutating operations see a payload, `getCart` folds over
      exactly that payload. */
  lemma StoredView(db: Db, userId: UserId)
    requires StoredLines(db, userId).Some?
    ensures var items := Details(db.products, StoredLines(db, userId).value);
      GetCart(db, userId) == CartView(items, SumSubtotals(items), SumQuantities(items))
  {
  }

  /** A successful add stores the merged payload and leaves the catalog. */
  lemma AddToCartStores(db: Db, userId: UserId, productId: ProductId, quantity: int,
                        variant: Option<string>, options: Option<string>)
    requires AddToCart(db, userId, productId, quantity, variant, options).Ok?
    ensures var after := AddToCart(db, userId, productId, quantity, variant, options).value;
      && productId in db.products
      && StoredLines(db, userId).Some?
      && StoredLines(after, userId) == Some(MergeLine(StoredLines(db, userId).value, productId, quantity, variant, options))
      && after.products == db.products
  {
  }

  /** Adding `quantity` of an available product to the user's cart raises the
      count `getCart` reports by exactly that quantity and its total by
      price × quantity. */
  lemma AddToCartRaisesTotals(db: Db, userId: UserId, productId: ProductId, quantity: int,
                              variant: Option<string>, options: Option<string>)
    requires AddToCart(db, userId, productId, quantity, variant, options).Ok?
    ensures var before := GetCart(db, userId);
      var after := GetCart(AddToCart(db, userId, productId, quantity, variant, options).value, userId);
      && after.count == before.count + quantity
      && after.total == before.total + Times(db.products[productId].price, quantity)
  {
    var db' := AddToCart(db, userId, productId, quantity, variant, options).value;
    AddToCartStores(db, userId, productId, quantity, variant, options);
    var lines := StoredLines(db, userId).value;
    var merged := MergeLine(lines, productId, quantity, variant, options);
    var before := Details(db.products, lines);
    var after := Details(db.products, merged);
    var extra := Times(db.products[productId].price, quantity);
    MergeLineTotals(db.products, lines, productId, quantity, variant, options);
    var was := GetCart(db, userId);
    var now := GetCart(db', userId);
    assert was.total == SumSubtotals(before) && was.count == SumQuantities(before) by {
      StoredView(db, userId);
    }
    assert now.total == SumSubtotals(after) && now.count == SumQuantities(after) by {
      StoredView(db', userId);
    }
    assert now.total == was.total + extra;
  }

  /** Removing a line lowers the count and total by what that line
      contributed; a line whose product was deleted contributed nothing. */
  lemma RemoveFromCartLowersTotals(db: Db, userId: UserId, productId: ProductId)
    requires RemoveFromCart(db, userId, productId).Ok?
    ensures var lines := db.carts[userId].items.value;
      var removed := lines[FindIndex(lines, productId)];
      var before := GetCart(db, userId);
      var after := GetCart(RemoveFromCart(db, userId, productId).value, userId);
      && after.count == before.count - LineCount(db.products, removed)
      && after.total == before.total - LineSubtotal(db.products, removed)
  {
    var lines := db.carts[userId].items.value;
    var k := FindIndex(lines, productId);
    SplitAt(lines, k);
    ViewAppend(db.products, lines[..k] + [lines[k]], lines[k + 1..]);
    ViewAppend(db.products, lines[..k], [lines[k]]);
    ViewAppend(db.products, lines[..k], lines[k + 1..]);
    DetailsSingle(db.products, lines[k]);
  }
}

=== FILE: catalog.dfy ===
/** The catalog side of the products service that has rules of its own: the
    pagination arithmetic of the product search, and bookmarks, a set of
    (user, product) pairs. */
module Catalog {
  import opened Common
  import opened Store

  // ---------------------------------------------------------------------------
  // Pagination

  /** What the search validation pipe admits: `page >= 1`, `1 <= limit <= 100`. */
  predicate ValidPaging(page: int, limit: int) {
    page >= 1 && 1 <= limit <= 100
  }

  /** `skip = (page - 1) * limit`: the number of rows before the page. */
  function Skip(page: int, limit: int): nat
    requires ValidPaging(page, limit)
  {
    (page - 1) * limit
  }

  /** `Math.ceil(total / limit)`: the least number of pages of `limit` rows
      that hold `total` rows. */
  function PageCount(total: nat, limit: int): (pages: nat)
    requires 1 <= limit
    ensures pages * limit >= total
    ensures pages > 0 ==> (pages - 1) * limit < total
    ensures pages == 0 <==> total == 0
  {
    (total + limit - 1) / limit
  }

  /** The rows of one page: `skip` rows dropped, at most `limit` taken. */
  function Page<T>(rows: seq<T>, page: int, limit: int): (r: seq<T>)
    requires ValidPaging(page, limit)
    ensures |r| <= limit
    ensures |r| == 0 || Skip(page, limit) + |r| <= |rows|
    ensures forall i :: 0 <= i < |r| ==> r[i] == rows[Skip(page, limit) + i]
  {
    var skip := Skip(page, limit);
    if skip >= |rows| then []
    else
      var upto := if skip + limit <= |rows| then skip + limit else |rows|;
      assert forall i :: 0 <= i < upto - skip ==> rows[skip..upto][i] == rows[skip + i];
      rows[skip..upto]
  }

  /** A page is non-empty exactly when its number is at most the page count
      the search reports. */
  lemma PageNonEmpty<T>(rows: seq<T>, page: int, limit: int)
    requires ValidPaging(page, limit)
    ensures |Page(rows, page, limit)| > 0 <==> page <= PageCount(|rows|, limit)
  {
    var pages := PageCount(|rows|, limit);
    if page <= pages {
      assert (page - 1) * limit <= (pages - 1) * limit;
    } else {
      assert pages <= page - 1;
      assert pages * limit <= (page - 1) * limit;
    }
  }

  /** The pages `1..n`, one after another. */
  function Pages<T>(rows: seq<T>, n: nat, limit: int): seq<T>
    requires 1 <= limit <= 100
  {
    if n == 0 then [] else Pages(rows, n - 1, limit) + Page(rows, n, limit)
  }

  /** The first `n` pages are the first `n * limit` rows. */
  lemma {:induction false} PagesPrefix<T>(rows: seq<T>, n: nat, limit: int)
    requires 1 <= limit <= 100
    ensures Pages(rows, n, limit) == rows[..Upto(rows, n * limit)]
  {
    if n > 0 {
      PagesPrefix(rows, n - 1, limit);
      var skip := (n - 1) * limit;
      PageAfter(rows, n, limit, skip);
      assert n * limit == skip + limit;
    }
  }

  /** `m` capped at the number of rows. */
  function Upto<T>(rows: seq<T>, m: nat): (r: nat)
    ensures r <= |rows| && r <= m
    ensures r == m || r == |rows|
  {
    if m <= |rows| then m else |rows|
  }

  /** Page `n` continues the rows before it up to the next `limit` rows. */
  lemma PageAfter<T>(rows: seq<T>, n: int, limit: int, skip: nat)
    requires ValidPaging(n, limit) && skip == Skip(n, limit)
    ensures rows[..Upto(rows, skip)] + Page(rows, n, limit) == rows[..Upto(rows, skip + limit)]
  {
    if skip < |rows| {
      assert Page(rows, n, limit) == rows[skip..Upto(rows, skip + limit)];
      assert rows[..skip] + rows[skip..Upto(rows, skip + limit)] == rows[..Upto(rows, skip + limit)];
    }
  }

  /** Reading every reported page in turn returns every row exactly once, in
      order. */
  lemma AllPages<T>(rows: seq<T>, limit: int)
    requires 1 <= limit <= 100
    ensures Pages(rows, PageCount(|rows|, limit), limit) == rows
  {
    PagesPrefix(rows, PageCount(|rows|, limit), limit);
  }

  // ---------------------------------------------------------------------------
  // Bookmarks

  const UnavailableMessage := "Product not found or not available"
  const AlreadyBookmarkedMessage := "Product already bookmarked"

  /** `addBookmark`: the product must be active; the pair must be new. */
  function AddBookmark(db: Db, userId: UserId, productId: ProductId): (r: Result<Db>)
    ensures !ActiveProduct(db, productId) ==> r == Err(NotFound(UnavailableMessage))
    ensures ActiveProduct(db, productId) && (userId, productId) in db.wishLists ==>
      r == Err(BadRequest(AlreadyBookmarkedMessage))
    ensures r.Ok? <==> ActiveProduct(db, productId) && (userId, productId) !in db.wishLists
    ensures r.Ok? ==>
      && r.value.wishLists - db.wishLists == {(userId, productId)}
      && db.wishLists < r.value.wishLists
      && r.value == db.(wishLists := r.value.wishLists)
  {
    if !ActiveProduct(db, productId) then Err(NotFound(UnavailableMessage))
    else if (userId, productId) in db.wishLists then Err(BadRequest(AlreadyBookmarkedMessage))
    else Ok(db.(wishLists := db.wishLists + {(userId, productId)}))
  }

  /** `removeBookmark`: deleting an absent pair is Prisma's record-not-found
      error; the service's own "Bookmark not found" branch is never reached,
      since a delete either returns the row or throws. */
  function RemoveBookmark(db: Db, userId: UserId, productId: ProductId): (r: Result<Db>)
    ensures r.Err? <==> (userId, productId) !in db.wishLists
    ensures r.Err? ==> r.error == Database("P2025")
    ensures r.Ok? ==>
      && db.wishLists - r.value.wishLists == {(userId, productId)}
      && r.value.wishLists < db.wishLists
      && r.value == db.(wishLists := r.value.wishLists)
  {
    if (userId, productId) !in db.wishLists then Err(Database("P2025"))
    else Ok(db.(wishLists := db.wishLists - {(userId, productId)}))
  }

  predicate IsBookmarked(db: Db, userId: UserId, productId: ProductId) {
    (userId, productId) in db.wishLists
  }

  /** After adding, the product is bookmarked, a second add is refused, and
      removing it restores the store. */
  lemma BookmarkRoundTrip(db: Db, userId: UserId, productId: ProductId)
    requires AddBookmark(db, userId, productId).Ok?
    ensures var added := AddBookmark(db, userId, productId).value;
      && IsBookmarked(added, userId, productId)
      && AddBookmark(added, userId, productId) == Err(BadRequest(AlreadyBookmarkedMessage))
      && RemoveBookmark(added, userId, productId) == Ok(db)
  {
    var added := AddBookmark(db, userId, productId).value;
    assert added.wishLists - {(userId, productId)} == db.wishLists;
  }

  /** After removing, the product is no longer bookmarked and a second remove
      fails; bookmarks of other pairs are untouched. */
  lemma RemoveBookmarkForgets(db: Db, userId: UserId, productId: ProductId, u: UserId, p: ProductId)
    requires RemoveBookmark(db, userId, productId).Ok?
    ensures var removed := RemoveBookmark(db, userId, productId).value;
      && !IsBookmarked(removed, userId, productId)
      && RemoveBookmark(removed, userId, productId) == Err(Database("P2025"))
      && ((u, p) != (userId, productId) ==> (IsBookmarked(removed, u, p) <==> IsBookmarked(db, u, p)))
  {
  }
}

=== FILE: checkout.dfy ===
/** Checkout of the products service: the cart becomes an order with one
    order line per cart line, stock is taken off the products that track it,
    and the cart is deleted. Coupons and flash-sale prices play no part. */
module Checkout {
  import opened Common
  import opened Store
  import opened Cart

  const UserNotFoundMessage := "User not found"
  const EmptyCartMessage := "Cart is empty"
  const DefaultBillingAddress := "Default Billing Address"
  const DefaultShippingAddress := "Default Shipping Address"
  const PendingStatus := "pending"
  const Currency := "USD"
  const ShippingCost := 0.0
  const Discount := 0.0

  /** The fields of the checkout request the order is built from. */
  datatype CheckoutForm = CheckoutForm(
    paymentMethod: string,
    shippingAddress: Option<string>,
    billingAddress: Option<string>,
    notes: Option<string>)

  /** The state after a successful checkout together with what the service
      answers: the new order's id, its total and its status. */
  datatype Placed = Placed(db: Db, orderId: int, total: real, status: string)

  function UnavailableMessage(productId: ProductId): string {
    "Product with ID " + IntToString(productId) + " not found or not available"
  }

  function ShortMessage(p: Product): string {
    "Insufficient stock for " + OrElse(p.name, "product")
  }

  // ---------------------------------------------------------------------------
  // Validation of the lines

  /** A line passes when its product is active and has stock for the line. */
  predicate LineOk(db: Db, l: CartLine) {
    ActiveProduct(db, l.productId) && !StockShort(db.products[l.productId], l.quantity)
  }

  /** The error the line check raises for a line that does not pass. */
  function LineError(db: Db, l: CartLine): Error {
    if !ActiveProduct(db, l.productId) then BadRequest(UnavailableMessage(l.productId))
    else BadRequest(ShortMessage(db.products[l.productId]))
  }

  /** The lines are checked in cart order; the first failing line decides the
      error. */
  function FirstProblem(db: Db, lines: seq<CartLine>): (r: Option<Error>)
    ensures r.None? <==> forall i :: 0 <= i < |lines| ==> LineOk(db, lines[i])
    ensures r.Some? ==>
      exists k ::
        && 0 <= k < |lines|
        && !LineOk(db, lines[k])
        && (forall i :: 0 <= i < k ==> LineOk(db, lines[i]))
        && r.value == LineError(db, lines[k])
    decreases |lines|
  {
    if |lines| == 0 then None
    else if !LineOk(db, lines[0]) then Some(LineError(db, lines[0]))
    else
      var rest := FirstProblem(db, lines[1..]);
      assert forall i :: 1 <= i < |lines| ==> lines[i] == lines[1..][i - 1];
      if rest.Some? then
        ghost var k :| 0 <= k < |lines[1..]| && !LineOk(db, lines[1..][k])
          && (forall i :: 0 <= i < k ==> LineOk(db, lines[1..][i]))
          && rest.value == LineError(db, lines[1..][k]);
        assert !LineOk(db, lines[k + 1]) && rest.value == LineError(db, lines[k + 1]);
        rest
      else rest
  }

  /** The lines checkout works on: none when there is no cart, the payload
      carries no `items`, or `items` is empty. */
  function CheckoutLines(db: Db, userId: UserId): (r: Option<seq<CartLine>>)
    ensures r.Some? <==>
      userId in db.carts && db.carts[userId].items.Some? && |db.carts[userId].items.value| > 0
    ensures r.Some? ==> r.value == db.carts[userId].items.value
  {
    if userId !in db.carts then None
    else match db.carts[userId].items
      case None => None
      case Some(lines) => if |lines| == 0 then None else Some(lines)
  }

  // ---------------------------------------------------------------------------
  // Order lines and stock

  predicate Known(products: map<ProductId, Product>, lines: seq<CartLine>) {
    forall i :: 0 <= i < |lines| ==> lines[i].productId in products
  }

  /** One order line per cart line, priced at the product's current price. */
  function OrderLinesFor(products: map<ProductId, Product>, orderId: int, lines: seq<CartLine>): (r: seq<OrderLine>)
    requires Known(products, lines)
    ensures |r| == |lines|
    ensures forall i :: 0 <= i < |r| ==>
      && r[i].orderId == orderId
      && r[i].productId == lines[i].productId
      && r[i].qty == lines[i].quantity
      && r[i].unitPrice == products[lines[i].productId].price
      && r[i].lineTotal == Times(products[lines[i].productId].price, lines[i].quantity)
    decreases |lines|
  {
    if |lines| == 0 then []
    else
      var l := lines[0];
      var price := products[l.productId].price;
      assert Known(products, lines[1..]) by {
        forall i | 0 <= i < |lines[1..]| ensures lines[1..][i].productId in products {
          assert lines[1..][i] == lines[i + 1];
        }
      }
      [OrderLine(orderId, l.productId, price, l.quantity, Times(price, l.quantity))]
      + OrderLinesFor(products, orderId, lines[1..])
  }

  function SumLineTotals(ls: seq<OrderLine>): real
    decreases |ls|
  {
    if |ls| == 0 then 0.0 else ls[0].lineTotal + SumLineTotals(ls[1..])
  }

  function SumQty(ls: seq<OrderLine>): int
    decreases |ls|
  {
    if |ls| == 0 then 0 else ls[0].qty + SumQty(ls[1..])
  }

  /** The quantity a product holds after `n` units are taken from it: only a
      product that tracks stock and has a quantity changes. */
  function StockAfter(p: Product, n: int): Option<int> {
    if p.manageStock && p.qty.Some? then Some(p.qty.value - n) else p.qty
  }

  /** The stock update for one order line, on the product as it is now. */
  function Decrement(products: map<ProductId, Product>, l: CartLine): map<ProductId, Product> {
    if l.productId in products
    then products[l.productId := products[l.productId].(qty := StockAfter(products[l.productId], l.quantity))]
    else products
  }

  /** The stock updates of all lines, one after another. */
  function DecrementStock(products: map<ProductId, Product>, lines: seq<CartLine>): (r: map<ProductId, Product>)
    ensures r.Keys == products.Keys
    decreases |lines|
  {
    if |lines| == 0 then products else DecrementStock(Decrement(products, lines[0]), lines[1..])
  }

  // ---------------------------------------------------------------------------
  // checkout

  /** The order row checkout inserts. */
  function NewOrder(db: Db, userId: UserId, form: CheckoutForm, subTotal: real, now: Timestamp): Order
    requires userId in db.users
  {
    Order(
      id := NextId(db.orders, (o: Order) => o.id),
      customerId := userId,
      customerEmail := db.users[userId].email,
      billingAddress := OrElse(form.billingAddress, DefaultBillingAddress),
      shippingAddress := OrElse(form.shippingAddress, DefaultShippingAddress),
      subTotal := subTotal,
      shippingCost := ShippingCost,
      discount := Discount,
      total := subTotal + ShippingCost - Discount,
      paymentMethod := form.paymentMethod,
      currency := Currency,
      status := PendingStatus,
      note := OrElse(form.notes, ""),
      couponId := None,
      createdAt := now,
      updatedAt := now)
  }

  /** `checkout`: user, then a non-empty cart, then every line in order; only
      then is anything written. */
  function PlaceOrder(db: Db, userId: UserId, form: CheckoutForm, now: Timestamp): (r: Result<Placed>)
    ensures userId !in db.users ==> r == Err(NotFound(UserNotFoundMessage))
    ensures userId in db.users && CheckoutLines(db, userId).None? ==> r == Err(BadRequest(EmptyCartMessage))
    ensures userId in db.users && CheckoutLines(db, userId).Some?
            && FirstProblem(db, CheckoutLines(db, userId).value).Some?
            ==> r == Err(FirstProblem(db, CheckoutLines(db, userId).value).value)
    ensures r.Ok? <==>
      && userId in db.users
      && CheckoutLines(db, userId).Some?
      && forall i :: 0 <= i < |CheckoutLines(db, userId).value| ==>
           LineOk(db, CheckoutLines(db, userId).value[i])
    ensures r.Ok? ==>
      && userId !in r.value.db.carts
      && |r.value.db.orders| == |db.orders| + 1
      && r.value.db.orders[..|db.orders|] == db.orders
      && r.value.db.orders[|db.orders|].id == r.value.orderId
      && (forall i :: 0 <= i < |db.orders| ==> db.orders[i].id != r.value.orderId)
      && r.value.db.orders[|db.orders|].customerId == userId
      && r.value.db.orders[|db.orders|].total == r.value.total
      && r.value.db.orders[|db.orders|].couponId.None?
      && r.value.status == PendingStatus
      && r.value.db.orders[|db.orders|].status == PendingStatus
      && r.value.db.orders[|db.orders|].customerEmail == db.users[userId].email
      && r.value.db.orders[|db.orders|].paymentMethod == form.paymentMethod
      && r.value.db.orders[|db.orders|].billingAddress == OrElse(form.billingAddress, DefaultBillingAddress)
      && r.value.db.orders[|db.orders|].shippingAddress == OrElse(form.shippingAddress, DefaultShippingAddress)
      && r.value.db.orders[|db.orders|].note == OrElse(form.notes, "")
      && r.value.db.orders[|db.orders|].shippingCost == 0.0
      && r.value.db.orders[|db.orders|].discount == 0.0
      && r.value.db.orders[|db.orders|].currency == Currency
      && r.value.db.orders[|db.orders|].createdAt == now
      && r.value.db.orders[|db.orders|].updatedAt == now
      && |r.value.db.orderLines| == |db.orderLines| + |db.carts[userId].items.value|
      && r.value.db.orderLines[..|db.orderLines|] == db.orderLines
      && r.value.db.products.Keys == db.products.Keys
      && r.value.db.users == db.users
      && r.value.db.coupons == db.coupons
      && r.value.db.wishLists == db.wishLists
      && (forall u :: u in db.carts && u != userId ==> u in r.value.db.carts && r.value.db.carts[u] == db.carts[u])
    ensures r.Ok? ==>
      var lines := db.carts[userId].items.value;
      && Known(db.products, lines)
      && r.value.db.orderLines[|db.orderLines|..] == OrderLinesFor(db.products, r.value.orderId, lines)
      && r.value.db.orders[|db.orders|].subTotal == SumLineTotals(r.value.db.orderLines[|db.orderLines|..])
      && r.value.db.orders[|db.orders|].total == r.value.db.orders[|db.orders|].subTotal
      && r.value.db.products == DecrementStock(db.products, lines)
      && r.value.db == db.(orders := r.value.db.orders, orderLines := r.value.db.orderLines,
                           products := r.value.db.products, carts := db.carts - {userId})
  {
    if userId !in db.users then Err(NotFound(UserNotFoundMessage))
    else match CheckoutLines(db, userId)
      case None => Err(BadRequest(EmptyCartMessage))
      case Some(lines) =>
        match FirstProblem(db, lines)
        case Some(e) => Err(e)
        case None =>
          assert Known(db.products, lines);
          var orderId := NextId(db.orders, (o: Order) => o.id);
          var orderLines := OrderLinesFor(db.products, orderId, lines);
          var order := NewOrder(db, userId, form, SumLineTotals(orderLines), now);
          var db' := db.(
            orders := db.orders + [order],
            orderLines := db.orderLines + orderLines,
            products := DecrementStock(db.products, lines),
            carts := db.carts - {userId});
          Ok(Placed(db', orderId, order.total, order.status))
  }

  // ---------------------------------------------------------------------------
  // Properties

  /** Each order line is a price snapshot: the product's price when the
      order is placed, and that price times the quantity as the line total. */
  lemma OrderLineTotals(products: map<ProductId, Product>, orderId: int, lines: seq<CartLine>, i: int)
    requires Known(products, lines) && 0 <= i < |lines|
    ensures var l := OrderLinesFor(products, orderId, lines)[i];
      && l.unitPrice == products[lines[i].productId].price
      && l.lineTotal == l.unitPrice * (l.qty as real)
  {
    var l := OrderLinesFor(products, orderId, lines)[i];
    TimesIsProduct(l.unitPrice, l.qty);
  }

  /** The order lines' totals and quantities add up to the total and count the
      cart view reports for the same lines. */
  lemma {:induction false} OrderLinesMatchView(products: map<ProductId, Product>, orderId: int, lines: seq<CartLine>)
    requires Known(products, lines)
    ensures SumLineTotals(OrderLinesFor(products, orderId, lines)) == SumSubtotals(Details(products, lines))
    ensures SumQty(OrderLinesFor(products, orderId, lines)) == SumQuantities(Details(products, lines))
    decreases |lines|
  {
    if |lines| > 0 {
      assert Known(products, lines[1..]) by {
        forall i | 0 <= i < |lines[1..]| ensures lines[1..][i].productId in products {
          assert lines[1..][i] == lines[i + 1];
        }
      }
      OrderLinesMatchView(products, orderId, lines[1..]);
      var head := Detail(products, lines[0]);
      var tail := Details(products, lines[1..]);
      assert Details(products, lines) == head + tail;
      SumsAppend(head, tail);
      assert head[1..] == [];
    }
  }

  /** The order total is the total `getCart` showed for the cart just before
      checkout, and its lines carry exactly the cart's count. */
  lemma OrderTotalIsCartTotal(db: Db, userId: UserId, form: CheckoutForm, now: Timestamp)
    requires PlaceOrder(db, userId, form, now).Ok?
    ensures PlaceOrder(db, userId, form, now).value.total == GetCart(db, userId).total
    ensures var placed := PlaceOrder(db, userId, form, now).value;
      SumQty(placed.db.orderLines[|db.orderLines|..]) == GetCart(db, userId).count
  {
    var lines := CheckoutLines(db, userId).value;
    var placed := PlaceOrder(db, userId, form, now).value;
    assert Known(db.products, lines);
    var orderId := NextId(db.orders, (o: Order) => o.id);
    var orderLines := OrderLinesFor(db.products, orderId, lines);
    assert placed.db.orderLines == db.orderLines + orderLines;
    assert placed.db.orderLines[|db.orderLines|..] == orderLines;
    OrderLinesMatchView(db.products, orderId, lines);
  }

  /** Taking stock line by line removes, from each product that tracks stock,
      the product's total quantity over all lines; other products and every
      other field stay as they were. */
  lemma {:induction false} DecrementStockTakes(products: map<ProductId, Product>, lines: seq<CartLine>)
    ensures DecrementStock(products, lines).Keys == products.Keys
    ensures forall p :: p in products ==>
      DecrementStock(products, lines)[p] == products[p].(qty := StockAfter(products[p], QuantityOf(lines, p)))
    decreases |lines|
  {
    if |lines| > 0 {
      var once := Decrement(products, lines[0]);
      DecrementStockTakes(once, lines[1..]);
      forall p | p in products
        ensures DecrementStock(products, lines)[p]
          == products[p].(qty := StockAfter(products[p], QuantityOf(lines, p)))
      {
        assert once[p] == products[p].(qty := StockAfter(products[p], Contribution(lines[0], p)));
      }
    }
  }

  /** In a cart whose products are distinct, a successful checkout takes each
      line's quantity off its product's stock and leaves no tracked stock
      negative. */
  lemma CheckoutStock(db: Db, userId: UserId, form: CheckoutForm, now: Timestamp, k: int)
    requires PlaceOrder(db, userId, form, now).Ok?
    requires DistinctProducts(db.carts[userId].items.value)
    requires 0 <= k < |db.carts[userId].items.value|
    ensures var l := db.carts[userId].items.value[k];
      var before := db.products[l.productId];
      var after := PlaceOrder(db, userId, form, now).value.db.products[l.productId];
      && after == before.(qty := StockAfter(before, l.quantity))
      && (before.manageStock && before.qty.Some? ==> after.qty.value >= 0)
  {
    var lines := db.carts[userId].items.value;
    assert LineOk(db, lines[k]);
    DecrementStockTakes(db.products, lines);
    QuantityOfDistinct(lines, k);
  }

  /** Products that are on no line of the cart keep their stock. */
  lemma CheckoutLeavesOtherStock(db: Db, userId: UserId, form: CheckoutForm, now: Timestamp, p: ProductId)
    requires PlaceOrder(db, userId, form, now).Ok?
    requires p in db.products && !InCart(db.carts[userId].items.value, p)
    ensures PlaceOrder(db, userId, form, now).value.db.products[p] == db.products[p]
  {
    var lines := db.carts[userId].items.value;
    DecrementStockTakes(db.products, lines);
    QuantityOfAbsent(lines, p);
  }

  /** Each line is checked against the stock on its own, so a payload that
      lists one product twice can take the stock below zero: two lines of 3
      against a stock of 5 both pass and leave -1. Payloads written by the
      cart operations never list a product twice. */
  lemma DuplicateLinesOversell()
    ensures var p := Product(true, 10.0, true, Some(5), None);
      var l := CartLine(1, 3, None, None);
      var db := Db(map[7 := User("a", "b", "a@b.c", "", Bcrypt("x"), 0, 0)], map[], {}, [], [], map[], {},
                   [], [], {}, map[1 := p], map[7 := CartRecord(Some([l, l]))], [], [], [], [], []);
      var r := PlaceOrder(db, 7, CheckoutForm("cod", None, None, None), 0);
      r.Ok? && r.value.db.products[1].qty == Some(-1)
  {
    var p := Product(true, 10.0, true, Some(5), None);
    var l := CartLine(1, 3, None, None);
    var db := Db(map[7 := User("a", "b", "a@b.c", "", Bcrypt("x"), 0, 0)], map[], {}, [], [], map[], {},
                 [], [], {}, map[1 := p], map[7 := CartRecord(Some([l, l]))], [], [], [], [], []);
    var lines := [l, l];
    assert LineOk(db, lines[0]) && LineOk(db, lines[1]);
    assert lines[1..] == [l] && [l][1..] == [];
    assert QuantityOf([l], 1) == 3;
    assert QuantityOf(lines, 1) == 6;
    DecrementStockTakes(db.products, lines);
  }

  /** A cart of two units of a 10.00 product with five in stock becomes an
      order of 20.00 and leaves three in stock. */
  lemma TwoUnitsScenario()
    ensures var p := Product(true, 10.0, true, Some(5), Some("Mug"));
      var db := Db(map[7 := User("a", "b", "a@b.c", "", Bcrypt("x"), 0, 0)], map[], {}, [], [], map[], {},
                   [], [], {}, map[1 := p], map[7 := CartRecord(Some([CartLine(1, 2, None, None)]))],
                   [], [], [], [], []);
      var r := PlaceOrder(db, 7, CheckoutForm("cod", None, None, None), 0);
      && r.Ok? && r.value.total == 20.0 && r.value.status == "pending"
      && r.value.db.products[1].qty == Some(3)
      && 7 !in r.value.db.carts
  {
    var p := Product(true, 10.0, true, Some(5), Some("Mug"));
    var lines := [CartLine(1, 2, None, None)];
    var db := Db(map[7 := User("a", "b", "a@b.c", "", Bcrypt("x"), 0, 0)], map[], {}, [], [], map[], {},
                 [], [], {}, map[1 := p], map[7 := CartRecord(Some(lines))], [], [], [], [], []);
    assert LineOk(db, lines[0]);
    assert lines[1..] == [];
    assert QuantityOf(lines, 1) == 2;
    DecrementStockTakes(db.products, lines);
    OrderTotalIsCartTotal(db, 7, CheckoutForm("cod", None, None, None), 0);
    DetailsSingle(db.products, lines[0]);
  }
}

=== FILE: common.dfy ===
/** Shared vocabulary of the storefront model: optional values, service results,
    the exceptions the services throw, and small sequence and string utilities
    that several services rely on (substring search, decimal rendering,
    auto-increment ids, ordering by a key). */
module Common {

  datatype Option<T> = None | Some(value: T) {
    function GetOr(default: T): T {
      match this
      case Some(v) => v
      case None => default
    }
  }

  /** What a service call throws. The first four are the Nest HTTP exceptions
      the services raise themselves; `Internal` is a plain `Error` or a runtime
      `TypeError` (rendered as 500); `Database` is a Prisma known request error
      carrying its code, rendered by the Prisma exception filter. */
  datatype Error =
    | BadRequest(message: string)
    | Unauthorized(message: string)
    | Forbidden(message: string)
    | NotFound(message: string)
    | Internal(message: string)
    | Database(code: string)

  datatype Result<T> = Ok(value: T) | Err(error: Error)

  /** JavaScript truthiness of an optional number: absent and zero are falsy. */
  predicate Truthy(n: Option<int>) {
    n.Some? && n.value != 0
  }

  predicate TruthyReal(x: Option<real>) {
    x.Some? && x.value != 0.0
  }

  /** JavaScript truthiness of an optional string: absent and "" are falsy. */
  predicate TruthyString(s: Option<string>) {
    s.Some? && s.value != ""
  }

  /** `s || fallback` on an optional string. */
  function OrElse(s: Option<string>, fallback: string): (r: string)
    ensures TruthyString(s) ==> r == s.value
    ensures !TruthyString(s) ==> r == fallback
  {
    if s.Some? && s.value != "" then s.value else fallback
  }

  // ---------------------------------------------------------------------------
  // Substring search (JavaScript `String.prototype.includes`)

  predicate IsPrefix(p: string, s: string) {
    |p| <= |s| && s[..|p|] == p
  }

  /** `text.includes(pattern)`: `pattern` occurs somewhere inside `text`. */
  predicate Contains(text: string, pattern: string)
    decreases |text|
  {
    IsPrefix(pattern, text) || (|text| > 0 && Contains(text[1..], pattern))
  }

  /** An occurrence at offset `k` is found by `Contains`. */
  lemma {:induction false} ContainsAt(text: string, pattern: string, k: nat)
    requires k + |pattern| <= |text|
    requires text[k..k + |pattern|] == pattern
    ensures Contains(text, pattern)
    decreases k
  {
    if k == 0 {
      assert text[..|pattern|] == pattern;
    } else {
      assert text[1..][k - 1..k - 1 + |pattern|] == text[k..k + |pattern|];
      ContainsAt(text[1..], pattern, k - 1);
    }
  }

  /** Every text that mentions "superadmin" also mentions "admin". */
  lemma {:induction false} SuperadminMentionsAdmin(text: string)
    requires Contains(text, "superadmin")
    ensures Contains(text, "admin")
    decreases |text|
  {
    if IsPrefix("superadmin", text) {
      assert text[5..10] == "admin";
      ContainsAt(text, "admin", 5);
    } else {
      SuperadminMentionsAdmin(text[1..]);
    }
  }

  // ---------------------------------------------------------------------------
  // Decimal rendering (JavaScript `Number.prototype.toString` on integers)

  function DigitChar(d: nat): char
    requires d < 10
  {
    "0123456789"[d]
  }

  function DigitValue(c: char): nat {
    if '0' <= c <= '9' then (c as int - '0' as int) as nat else 0
  }

  predicate IsDigit(c: char) {
    '0' <= c <= '9'
  }

  /** Decimal numeral of `n`, most significant digit first, no leading zero. */
  function NatToString(n: nat): (s: string)
    ensures |s| >= 1
    ensures forall i :: 0 <= i < |s| ==> IsDigit(s[i])
    ensures n >= 10 ==> s[0] != '0'
    decreases n
  {
    if n < 10 then [DigitChar(n)] else NatToString(n / 10) + [DigitChar(n % 10)]
  }

  function IntToString(i: int): string {
    if i < 0 then "-" + NatToString(-i) else NatToString(i)
  }

  /** Reads a string of decimal digits back as a number. */
  function ParseDigits(s: string): nat
    decreases |s|
  {
    if |s| == 0 then 0 else ParseDigits(s[..|s| - 1]) * 10 + DigitValue(s[|s| - 1])
  }

  lemma {:induction false} ParseNatToString(n: nat)
    ensures ParseDigits(NatToString(n)) == n
    decreases n
  {
    var s := NatToString(n);
    if n < 10 {
      assert DigitValue(DigitChar(n)) == n;
    } else {
      ParseNatToString(n / 10);
      assert s[..|s| - 1] == NatToString(n / 10);
      assert DigitValue(DigitChar(n % 10)) == n % 10;
    }
  }

  function Pow10(k: nat): nat {
    if k == 0 then 1 else 10 * Pow10(k - 1)
  }

  /** A number with `k` significant digits renders as exactly `k` characters. */
  lemma {:induction false} NatToStringLength(n: nat, k: nat)
    requires k >= 1
    requires Pow10(k - 1) <= n < Pow10(k)
    ensures |NatToString(n)| == k
    decreases k
  {
    if k == 1 {
      assert n < 10;
    } else {
      assert Pow10(k - 1) == 10 * Pow10(k - 2);
      assert n >= 10;
      NatToStringLength(n / 10, k - 1);
    }
  }

  // ---------------------------------------------------------------------------
  // Money

  /** `price * quantity` written as repeated addition, so that the cart and
      order totals stay in linear arithmetic; TimesIsProduct shows it is the
      product. */
  function Times(price: real, n: int): real
    decreases if n < 0 then -n else n
  {
    if n == 0 then 0.0
    else if n > 0 then Times(price, n - 1) + price
    else Times(price, n + 1) - price
  }

  lemma {:induction false} TimesIsProduct(price: real, n: int)
    ensures Times(price, n) == price * n as real
    decreases if n < 0 then -n else n
  {
    if n > 0 {
      TimesIsProduct(price, n - 1);
      assert price * n as real == price * (n - 1) as real + price;
    } else if n < 0 {
      TimesIsProduct(price, n + 1);
      assert price * n as real == price * (n + 1) as real - price;
    }
  }

  /** Quantities add: the price of `a + b` units is the price of `a` units
      plus the price of `b`. */
  lemma TimesAdd(price: real, a: int, b: int)
    ensures Times(price, a + b) == Times(price, a) + Times(price, b)
  {
    TimesIsProduct(price, a);
    TimesIsProduct(price, b);
    TimesIsProduct(price, a + b);
    assert price * (a + b) as real == price * a as real + price * b as real;
  }

  // ---------------------------------------------------------------------------
  // Auto-increment identifiers

  function MaxId<T>(s: seq<T>, id: T -> int): (m: int)
    ensures forall i :: 0 <= i < |s| ==> id(s[i]) <= m
    ensures m >= 0
  {
    if |s| == 0 then 0
    else
      var rest := MaxId(s[..|s| - 1], id);
      assert forall i :: 0 <= i < |s| - 1 ==> s[..|s| - 1][i] == s[i];
      if id(s[|s| - 1]) > rest then id(s[|s| - 1]) else rest
  }

  /** The id an auto-increment column hands to the next inserted row: larger
      than every id in the table, hence used by no row. */
  function NextId<T>(s: seq<T>, id: T -> int): (n: int)
    ensures n >= 1
    ensures forall i :: 0 <= i < |s| ==> id(s[i]) < n
  {
    MaxId(s, id) + 1
  }

  // ---------------------------------------------------------------------------
  // Ordering by an integer key (database `orderBy`)

  predicate SortedBy<T>(s: seq<T>, key: T -> int) {
    forall i, j :: 0 <= i < j < |s| ==> key(s[i]) <= key(s[j])
  }

  function InsertBy<T>(x: T, s: seq<T>, key: T -> int): (r: seq<T>)
    requires SortedBy(s, key)
    ensures multiset(r) == multiset(s) + multiset{x}
    ensures SortedBy(r, key)
    decreases |s|
  {
    if |s| == 0 then [x]
    else if key(x) <= key(s[0]) then
      SortedCons(x, s, key);
      [x] + s
    else
      var tail := InsertBy(x, s[1..], key);
      assert multiset(s) == multiset{s[0]} + multiset(s[1..]) by {
        assert s == [s[0]] + s[1..];
      }
      LowerBound(tail, s[1..] + [x], key, key(s[0]));
      SortedCons(s[0], tail, key);
      [s[0]] + tail
  }

  /** A head no larger than every key of a sorted tail keeps it sorted. */
  lemma SortedCons<T>(h: T, t: seq<T>, key: T -> int)
    requires SortedBy(t, key)
    requires |t| > 0 ==> key(h) <= key(t[0])
    ensures SortedBy([h] + t, key)
  {
    var r := [h] + t;
    forall i, j | 0 <= i < j < |r|
      ensures key(r[i]) <= key(r[j])
    {
      if i == 0 {
        assert r[j] == t[j - 1];
        assert key(t[0]) <= key(t[j - 1]);
      } else {
        assert r[i] == t[i - 1] && r[j] == t[j - 1];
      }
    }
  }

  /** A bound below every key of `u` bounds every key of a permutation of it. */
  lemma LowerBound<T>(t: seq<T>, u: seq<T>, key: T -> int, bound: int)
    requires multiset(t) == multiset(u)
    requires forall k :: 0 <= k < |u| ==> bound <= key(u[k])
    ensures forall k :: 0 <= k < |t| ==> bound <= key(t[k])
  {
    forall k | 0 <= k < |t|
      ensures bound <= key(t[k])
    {
      assert t[k] in multiset(u);
      var j :| 0 <= j < |u| && u[j] == t[k];
    }
  }

  /** An insertion sort: the same elements, ordered by `key` ascending.
      Elements with equal keys keep no promised relative order. */
  function SortBy<T>(s: seq<T>, key: T -> int): (r: seq<T>)
    ensures multiset(r) == multiset(s)
    ensures SortedBy(r, key)
    decreases |s|
  {
    if |s| == 0 then []
    else
      assert s == [s[0]] + s[1..];
      InsertBy(s[0], SortBy(s[1..], key), key)
  }

  /** Sorting preserves membership in both directions. */
  lemma SortByMembers<T>(s: seq<T>, key: T -> int, x: T)
    ensures x in SortBy(s, key) <==> x in s
  {
    var r := SortBy(s, key);
    assert x in r <==> x in multiset(r);
    assert x in s <==> x in multiset(s);
  }

  /** Keeps the elements that satisfy `p`, in their original order. */
  function Filter<T>(s: seq<T>, p: T -> bool): (r: seq<T>)
    ensures |r| <= |s|
    ensures forall i :: 0 <= i < |r| ==> r[i] in s && p(r[i])
    ensures forall i :: 0 <= i < |s| && p(s[i]) ==> s[i] in r
    decreases |s|
  {
    if |s| == 0 then []
    else
      assert s == [s[0]] + s[1..];
      (if p(s[0]) then [s[0]] else []) + Filter(s[1..], p)
  }

  /** An element survives the filter exactly when it occurs and passes. */
  lemma FilterMembers<T>(s: seq<T>, p: T -> bool, x: T)
    ensures x in Filter(s, p) <==> x in s && p(x)
  {
    var r := Filter(s, p);
    if x in r {
      var i :| 0 <= i < |r| && r[i] == x;
    }
    if x in s && p(x) {
      var i :| 0 <= i < |s| && s[i] == x;
    }
  }

  /** A filter that keeps every element is the identity. */
  lemma {:induction false} FilterAll<T>(s: seq<T>, keep: T -> bool)
    requires forall i :: 0 <= i < |s| ==> keep(s[i])
    ensures Filter(s, keep) == s
    decreases |s|
  {
    if |s| > 0 {
      assert s == [s[0]] + s[1..];
      FilterAll(s[1..], keep);
    }
  }

  /** A filter that keeps no element is empty. */
  lemma {:induction false} FilterNone<T>(s: seq<T>, keep: T -> bool)
    requires forall i :: 0 <= i < |s| ==> !keep(s[i])
    ensures Filter(s, keep) == []
    decreases |s|
  {
    if |s| > 0 {
      FilterNone(s[1..], keep);
    }
  }

  /** Filtering distributes over concatenation. */
  lemma {:induction false} FilterAppend<T>(a: seq<T>, b: seq<T>, keep: T -> bool)
    ensures Filter(a + b, keep) == Filter(a, keep) + Filter(b, keep)
    decreases |a|
  {
    if |a| > 0 {
      assert (a + b)[1..] == a[1..] + b;
      FilterAppend(a[1..], b, keep);
    } else {
      assert a + b == b;
    }
  }

  /** Filters that agree on every element keep the same elements. */
  lemma {:induction false} FilterAgrees<T>(s: seq<T>, k1: T -> bool, k2: T -> bool)
    requires forall i :: 0 <= i < |s| ==> k1(s[i]) == k2(s[i])
    ensures Filter(s, k1) == Filter(s, k2)
    decreases |s|
  {
    if |s| > 0 {
      FilterAgrees(s[1..], k1, k2);
    }
  }
}

=== FILE: orders.dfy ===
/** The orders service: orders are only ever created by checkout; customers
    see their own orders, admins see and change all of them. */
module Orders {
  import opened Common
  import opened Store
  import Users

  const DirectCreateMessage := "Orders should be created through checkout process, not directly"
  const OrderNotFoundMessage := "Order not found"
  const AdminUpdateMessage := "Only admins can update orders"
  const AdminDeleteMessage := "Only admins can delete orders"
  const AdminByStatusMessage := "Only admins can view orders by status"
  const AdminStatusMessage := "Only admins can update order status"

  /** The values the status update accepts. */
  predicate AllowedStatus(s: string) {
    s in ["pending", "processing", "shipped", "delivered", "cancelled", "refunded"]
  }

  /** An admin sees every order, anyone else only their own. */
  predicate Visible(o: Order, userId: UserId, isAdmin: bool) {
    isAdmin || o.customerId == userId
  }

  /** The listing order: newest first. */
  function Newest(o: Order): int {
    -o.createdAt
  }

  predicate NewestFirst(s: seq<Order>) {
    forall i, j :: 0 <= i < j < |s| ==> s[i].createdAt >= s[j].createdAt
  }

  /** `create`: always refused. */
  function Create(db: Db): (r: Result<Db>)
    ensures r == Err(Internal(DirectCreateMessage))
  {
    Err(Internal(DirectCreateMessage))
  }

  /** The orders matching `keep`, newest first. */
  function Listing(orders: seq<Order>, keep: Order -> bool): (r: seq<Order>)
    ensures NewestFirst(r)
    ensures forall i :: 0 <= i < |r| ==> r[i] in orders && keep(r[i])
    ensures forall i :: 0 <= i < |orders| && keep(orders[i]) ==> orders[i] in r
    ensures multiset(r) == multiset(Filter(orders, keep))
  {
    var kept := Filter(orders, keep);
    var r := SortBy(kept, Newest);
    assert NewestFirst(r) by {
      forall i, j | 0 <= i < j < |r| ensures r[i].createdAt >= r[j].createdAt {
        assert Newest(r[i]) <= Newest(r[j]);
      }
    }
    assert forall o :: o in r <==> o in orders && keep(o) by {
      forall o ensures o in r <==> o in orders && keep(o) {
        SortByMembers(kept, Newest, o);
        FilterMembers(orders, keep, o);
      }
    }
    r
  }

  /** `findAll`: the caller's orders, or all orders for an admin, newest first. */
  function FindAll(db: Db, userId: UserId, isAdmin: bool): (r: seq<Order>)
    ensures NewestFirst(r)
    ensures forall i :: 0 <= i < |r| ==> r[i] in db.orders && Visible(r[i], userId, isAdmin)
    ensures forall i :: 0 <= i < |db.orders| && Visible(db.orders[i], userId, isAdmin) ==> db.orders[i] in r
  {
    Listing(db.orders, (o: Order) => Visible(o, userId, isAdmin))
  }

  /** An admin's listing is a permutation of the whole table. */
  lemma AdminSeesAll(db: Db, userId: UserId)
    ensures multiset(FindAll(db, userId, true)) == multiset(db.orders)
  {
    var keep := (o: Order) => Visible(o, userId, true);
    FilterAll(db.orders, keep);
  }

  /** `getUserOrderHistory` lists the same orders as a customer's `findAll`. */
  function History(db: Db, userId: UserId): (r: seq<Order>)
    ensures forall i :: 0 <= i < |r| ==> r[i].customerId == userId
  {
    Listing(db.orders, (o: Order) => o.customerId == userId)
  }

  lemma HistoryIsOwnListing(db: Db, userId: UserId)
    ensures History(db, userId) == FindAll(db, userId, false)
  {
    FilterAgrees(db.orders, (o: Order) => o.customerId == userId, (o: Order) => Visible(o, userId, false));
  }

  /** The first order with id `id` that the caller may see. */
  function FirstVisible(orders: seq<Order>, id: int, userId: UserId, isAdmin: bool): (k: int)
    ensures -1 <= k < |orders|
    ensures k == -1 <==> forall i :: 0 <= i < |orders| ==> !(orders[i].id == id && Visible(orders[i], userId, isAdmin))
    ensures k >= 0 ==> orders[k].id == id && Visible(orders[k], userId, isAdmin)
    decreases |orders|
  {
    if |orders| == 0 then -1
    else if orders[0].id == id && Visible(orders[0], userId, isAdmin) then 0
    else
      var k := FirstVisible(orders[1..], id, userId, isAdmin);
      if k == -1 then -1 else k + 1
  }

  /** `findOne`: a customer asking for someone else's order gets the same
      answer as for an id that does not exist. */
  function FindOne(db: Db, id: int, userId: UserId, isAdmin: bool): (r: Result<Order>)
    ensures r.Err? <==> forall i :: 0 <= i < |db.orders| ==> !(db.orders[i].id == id && Visible(db.orders[i], userId, isAdmin))
    ensures r.Err? ==> r.error == NotFound(OrderNotFoundMessage)
    ensures r.Ok? ==> r.value in db.orders && r.value.id == id && Visible(r.value, userId, isAdmin)
  {
    var k := FirstVisible(db.orders, id, userId, isAdmin);
    if k == -1 then Err(NotFound(OrderNotFoundMessage)) else Ok(db.orders[k])
  }

  /** What `findOne` returns also appears in the caller's `findAll`. */
  lemma FindOneInFindAll(db: Db, id: int, userId: UserId, isAdmin: bool)
    requires FindOne(db, id, userId, isAdmin).Ok?
    ensures FindOne(db, id, userId, isAdmin).value in FindAll(db, userId, isAdmin)
  {
    var k := FirstVisible(db.orders, id, userId, isAdmin);
    assert db.orders[k] == FindOne(db, id, userId, isAdmin).value;
  }

  /** A non-admin cannot tell someone else's order from a missing one. */
  lemma OthersOrdersLookMissing(db: Db, id: int, userId: UserId)
    requires forall i :: 0 <= i < |db.orders| && db.orders[i].id == id ==> db.orders[i].customerId != userId
    ensures FindOne(db, id, userId, false) == FindOne(db.(orders := []), id, userId, false)
  {
  }

  predicate HasOrder(db: Db, id: int) {
    exists i :: 0 <= i < |db.orders| && db.orders[i].id == id
  }

  /** Every row with id `id` rewritten by `edit`. */
  function Rewrite(orders: seq<Order>, id: int, edit: Order -> Order): (r: seq<Order>)
    ensures |r| == |orders|
    ensures forall i :: 0 <= i < |r| ==> r[i] == if orders[i].id == id then edit(orders[i]) else orders[i]
    decreases |orders|
  {
    if |orders| == 0 then []
    else [if orders[0].id == id then edit(orders[0]) else orders[0]] + Rewrite(orders[1..], id, edit)
  }

  /** `update`: admin first, then existence; the payload's fields overwrite
      the row (`edit`) and the update time is stamped. */
  function Update(db: Db, id: int, edit: Order -> Order, isAdmin: bool, now: Timestamp): (r: Result<Db>)
    ensures !isAdmin ==> r == Err(Unauthorized(AdminUpdateMessage))
    ensures isAdmin && !HasOrder(db, id) ==> r == Err(NotFound(OrderNotFoundMessage))
    ensures r.Ok? <==> isAdmin && HasOrder(db, id)
    ensures r.Ok? ==>
      && r.value == db.(orders := r.value.orders)
      && |r.value.orders| == |db.orders|
      && forall i :: 0 <= i < |db.orders| ==>
           r.value.orders[i] == if db.orders[i].id == id then edit(db.orders[i]).(updatedAt := now) else db.orders[i]
  {
    if !isAdmin then Err(Unauthorized(AdminUpdateMessage))
    else if !HasOrder(db, id) then Err(NotFound(OrderNotFoundMessage))
    else Ok(db.(orders := Rewrite(db.orders, id, (o: Order) => edit(o).(updatedAt := now))))
  }

  /** `remove`: admin first, then existence; the order's lines go, then the
      order. */
  function Remove(db: Db, id: int, isAdmin: bool): (r: Result<Db>)
    ensures !isAdmin ==> r == Err(Unauthorized(AdminDeleteMessage))
    ensures isAdmin && !HasOrder(db, id) ==> r == Err(NotFound(OrderNotFoundMessage))
    ensures r.Ok? <==> isAdmin && HasOrder(db, id)
    ensures r.Ok? ==>
      && r.value == db.(orders := r.value.orders, orderLines := r.value.orderLines)
      && (forall i :: 0 <= i < |r.value.orders| ==> r.value.orders[i].id != id && r.value.orders[i] in db.orders)
      && (forall i :: 0 <= i < |db.orders| && db.orders[i].id != id ==> db.orders[i] in r.value.orders)
      && (forall i :: 0 <= i < |r.value.orderLines| ==>
            r.value.orderLines[i].orderId != id && r.value.orderLines[i] in db.orderLines)
      && (forall i :: 0 <= i < |db.orderLines| && db.orderLines[i].orderId != id ==>
            db.orderLines[i] in r.value.orderLines)
  {
    if !isAdmin then Err(Unauthorized(AdminDeleteMessage))
    else if !HasOrder(db, id) then Err(NotFound(OrderNotFoundMessage))
    else Ok(db.(orderLines := Filter(db.orderLines, (l: OrderLine) => l.orderId != id),
                orders := Filter(db.orders, (o: Order) => o.id != id)))
  }

  /** After removal the order can no longer be found, by anyone. */
  lemma RemovedOrderIsGone(db: Db, id: int, userId: UserId, isAdmin: bool)
    requires Remove(db, id, isAdmin).Ok?
    ensures FindOne(Remove(db, id, isAdmin).value, id, userId, isAdmin).Err?
    ensures !HasOrder(Remove(db, id, isAdmin).value, id)
  {
  }

  /** `findByStatus`: admins only; the orders in that status, newest first. */
  function FindByStatus(db: Db, status: string, isAdmin: bool): (r: Result<seq<Order>>)
    ensures !isAdmin <==> r == Err(Unauthorized(AdminByStatusMessage))
    ensures r.Ok? ==> NewestFirst(r.value)
    ensures r.Ok? ==> forall i :: 0 <= i < |r.value| ==> r.value[i] in db.orders && r.value[i].status == status
    ensures r.Ok? ==> forall i :: 0 <= i < |db.orders| && db.orders[i].status == status ==> db.orders[i] in r.value
  {
    if !isAdmin then Err(Unauthorized(AdminByStatusMessage))
    else Ok(Listing(db.orders, (o: Order) => o.status == status))
  }

  /** `updateOrderStatus`: the admin check reads the roles itself (its extra
      test on role translations never holds, as translations are not loaded),
      then the order must exist; only the status and update time change. */
  function UpdateOrderStatus(db: Db, id: int, status: string, adminId: UserId, now: Timestamp): (r: Result<Db>)
    requires AllowedStatus(status)
    ensures !Users.IsAdmin(db, adminId) ==> r == Err(Unauthorized(AdminStatusMessage))
    ensures Users.IsAdmin(db, adminId) && !HasOrder(db, id) ==> r == Err(NotFound(OrderNotFoundMessage))
    ensures r.Ok? <==> Users.IsAdmin(db, adminId) && HasOrder(db, id)
    ensures r.Ok? ==>
      && r.value == db.(orders := r.value.orders)
      && |r.value.orders| == |db.orders|
      && forall i :: 0 <= i < |db.orders| ==>
           r.value.orders[i] == if db.orders[i].id == id then db.orders[i].(status := status, updatedAt := now)
                                else db.orders[i]
  {
    if !Users.IsAdmin(db, adminId) then Err(Unauthorized(AdminStatusMessage))
    else if !HasOrder(db, id) then Err(NotFound(OrderNotFoundMessage))
    else Ok(db.(orders := Rewrite(db.orders, id, (o: Order) => o.(status := status, updatedAt := now))))
  }

  /** The status update does not look at the current status: any allowed
      status can follow any other, and the result does not depend on what the
      status was. */
  lemma AnyStatusFollowsAny(db: Db, id: int, s1: string, s2: string, adminId: UserId, t1: Timestamp, t2: Timestamp)
    requires AllowedStatus(s1) && AllowedStatus(s2)
    requires UpdateOrderStatus(db, id, s1, adminId, t1).Ok?
    ensures var once := UpdateOrderStatus(db, id, s1, adminId, t1).value;
      && UpdateOrderStatus(once, id, s2, adminId, t2).Ok?
      && UpdateOrderStatus(once, id, s2, adminId, t2) == UpdateOrderStatus(db, id, s2, adminId, t2)
  {
    var once := UpdateOrderStatus(db, id, s1, adminId, t1).value;
    assert Users.IsAdmin(once, adminId) by {
      assert once.userRoles == db.userRoles && once.roles == db.roles;
    }
    assert HasOrder(once, id) by {
      var i :| 0 <= i < |db.orders| && db.orders[i].id == id;
      assert once.orders[i].id == id;
    }
    var twice := UpdateOrderStatus(once, id, s2, adminId, t2).value;
    var direct := UpdateOrderStatus(db, id, s2, adminId, t2).value;
    assert twice.orders == direct.orders by {
      forall i | 0 <= i < |db.orders| ensures twice.orders[i] == direct.orders[i] {
        if db.orders[i].id == id {
          assert once.orders[i] == db.orders[i].(status := s1, updatedAt := t1);
        } else {
          assert once.orders[i] == db.orders[i];
        }
      }
    }
    assert twice == direct;
  }
}

=== FILE: prisma_filter.dfy ===
/** The exception filter that turns a known Prisma error into an HTTP
    response: a fixed table from error code to status and message, and a body
    that always echoes the status and names the error kind. */
module PrismaFilter {
  import opened Common
  import Store
  import Catalog

  const Conflict := 409
  const NotFoundStatus := 404
  const BadRequestStatus := 400
  const InternalServerError := 500

  const UniquePrefix := "Unique constraint failed on the "
  const RecordNotFound := "Record not found"
  const RelatedNotFound := "Related record not found"
  const OperationFailed := "Database operation failed"
  const DatabaseError := "Database Error"

  /** `meta.target` as the template literal renders it: an absent target
      prints "undefined", a list of fields prints them joined by commas. */
  function RenderTarget(target: Option<seq<string>>): string {
    match target
    case None => "undefined"
    case Some(fields) => Join(fields)
  }

  /** `Array.prototype.toString`: the items separated by ",". */
  function Join(fields: seq<string>): (s: string)
    ensures |fields| == 1 ==> s == fields[0]
    ensures |fields| == 0 ==> s == ""
    ensures |s| >= |fields| - 1
    decreases |fields|
  {
    if |fields| == 0 then ""
    else if |fields| == 1 then fields[0]
    else Join(fields[..|fields| - 1]) + "," + fields[|fields| - 1]
  }

  /** The JSON body; `timestamp` is the clock's ISO string, a parameter. */
  datatype Body = Body(statusCode: int, message: string, timestamp: string, error: string)

  datatype Response = Response(status: int, body: Body)

  /** The status and message for a code. */
  function StatusAndMessage(code: string, target: Option<seq<string>>): (r: (int, string))
    ensures code == "P2002" ==> r == (Conflict, UniquePrefix + RenderTarget(target))
    ensures code == "P2025" ==> r == (NotFoundStatus, RecordNotFound)
    ensures code == "P2003" ==> r == (BadRequestStatus, RelatedNotFound)
    ensures code !in {"P2002", "P2025", "P2003"} ==> r == (InternalServerError, OperationFailed)
  {
    if code == "P2002" then (Conflict, UniquePrefix + RenderTarget(target))
    else if code == "P2025" then (NotFoundStatus, RecordNotFound)
    else if code == "P2003" then (BadRequestStatus, RelatedNotFound)
    else (InternalServerError, OperationFailed)
  }

  /** `catch`: the response for a known request error. */
  function Catch(code: string, target: Option<seq<string>>, timestamp: string): (r: Response)
    ensures r.body.statusCode == r.status
    ensures r.body.error == DatabaseError
    ensures r.body.timestamp == timestamp
    ensures r.status in {Conflict, NotFoundStatus, BadRequestStatus, InternalServerError}
    ensures (r.status, r.body.message) == StatusAndMessage(code, target)
  {
    var (status, message) := StatusAndMessage(code, target);
    Response(status, Body(status, message, timestamp, DatabaseError))
  }

  /** The status alone tells the three named codes apart, and any status
      other than 500 comes from exactly one code. Only the unique-constraint
      message depends on anything but the code. */
  lemma StatusIdentifiesCode(code: string, target: Option<seq<string>>, timestamp: string)
    ensures Catch(code, target, timestamp).status == Conflict <==> code == "P2002"
    ensures Catch(code, target, timestamp).status == NotFoundStatus <==> code == "P2025"
    ensures Catch(code, target, timestamp).status == BadRequestStatus <==> code == "P2003"
    ensures Catch(code, target, timestamp).status == InternalServerError <==> code !in {"P2002", "P2025", "P2003"}
    ensures code != "P2002" ==> forall other :: Catch(code, other, timestamp) == Catch(code, target, timestamp)
  {
  }

  /** A unique-constraint failure on one field names that field; one with no
      target says "undefined". */
  lemma UniqueMessageNamesTarget(field: string, timestamp: string)
    ensures Catch("P2002", Some([field]), timestamp).body.message == UniquePrefix + field
    ensures Catch("P2002", None, timestamp).body.message == "Unique constraint failed on the undefined"
  {
  }

  /** The joined target lists every field in order, separated by commas:
      dropping the last field and its comma gives the join of the rest. */
  lemma {:induction false} JoinSplits(fields: seq<string>, last: string)
    requires |fields| > 0
    ensures Join(fields + [last]) == Join(fields) + "," + last
  {
    assert (fields + [last])[..|fields|] == fields;
  }

  /** Deleting a bookmark that does not exist reaches the client as 404
      "Record not found". */
  lemma AbsentBookmarkIsNotFound(db: Store.Db, userId: Store.UserId, productId: Store.ProductId, timestamp: string)
    requires (userId, productId) !in db.wishLists
    ensures Catalog.RemoveBookmark(db, userId, productId).Err?
    ensures var e := Catalog.RemoveBookmark(db, userId, productId).error;
      e.Database? && Catch(e.code, None, timestamp).status == NotFoundStatus
      && Catch(e.code, None, timestamp).body.message == RecordNotFound
  {
  }
}

=== FILE: sales.dfy ===
/** The sales service: coupons (creation with a unique code, lookup, and the
    validator that prices a coupon against an order total) and flash sales
    (creation, wholesale replacement of their entries, the live listing). */
module Sales {
  import opened Common
  import opened Store
  import Users
  import Checkout

  // ---------------------------------------------------------------------------
  // Coupon lookup

  const CouponInactiveMessage := "Coupon not found or not active"
  const UsageLimitMessage := "Coupon usage limit reached"
  const CustomerLimitMessage := "Coupon usage limit reached for this user"

  /** `start_date <= now <= end_date`; a missing date never compares, so a
      coupon without both dates is never in its window. */
  predicate InWindow(c: Coupon, now: Timestamp) {
    c.startDate.Some? && c.endDate.Some? && c.startDate.value <= now <= c.endDate.value
  }

  /** The filter of the coupon lookups: the code, active, in its window. */
  predicate Usable(c: Coupon, code: string, now: Timestamp) {
    c.code == code && c.isActive && InWindow(c, now)
  }

  /** `findFirst` over the coupon table in row order. */
  function FindUsable(coupons: seq<Coupon>, code: string, now: Timestamp): (r: Option<Coupon>)
    ensures r.None? <==> forall i :: 0 <= i < |coupons| ==> !Usable(coupons[i], code, now)
    ensures r.Some? ==> r.value in coupons && Usable(r.value, code, now)
    decreases |coupons|
  {
    if |coupons| == 0 then None
    else if Usable(coupons[0], code, now) then Some(coupons[0])
    else
      var r := FindUsable(coupons[1..], code, now);
      assert forall i :: 1 <= i < |coupons| ==> coupons[i] == coupons[1..][i - 1];
      r
  }

  /** A non-zero per-coupon limit that `used` has reached. */
  predicate GlobalCapHit(c: Coupon) {
    Truthy(c.usageLimitPerCoupon) && c.used >= c.usageLimitPerCoupon.value
  }

  /** The user's orders that carry the coupon. */
  function CouponUses(orders: seq<Order>, userId: UserId, couponId: int): nat {
    |Filter(orders, (o: Order) => o.customerId == userId && o.couponId == Some(couponId))|
  }

  predicate CustomerCapHit(db: Db, c: Coupon, userId: UserId) {
    Truthy(c.usageLimitPerCustomer) && CouponUses(db.orders, userId, c.id) >= c.usageLimitPerCustomer.value
  }

  /** `findCouponByCode`: the lookup and the per-coupon cap only. */
  function FindCouponByCode(db: Db, code: string, now: Timestamp): (r: Result<Coupon>)
    ensures FindUsable(db.coupons, code, now).None? ==> r == Err(NotFound(CouponInactiveMessage))
    ensures FindUsable(db.coupons, code, now).Some? && GlobalCapHit(FindUsable(db.coupons, code, now).value)
      ==> r == Err(BadRequest(UsageLimitMessage))
    ensures r.Ok? <==> FindUsable(db.coupons, code, now).Some? && !GlobalCapHit(FindUsable(db.coupons, code, now).value)
    ensures r.Ok? ==> r.value == FindUsable(db.coupons, code, now).value
    ensures r.Ok? ==> Usable(r.value, code, now) && !GlobalCapHit(r.value)
  {
    match FindUsable(db.coupons, code, now)
    case None => Err(NotFound(CouponInactiveMessage))
    case Some(c) =>
      if GlobalCapHit(c) then Err(BadRequest(UsageLimitMessage)) else Ok(c)
  }

  // ---------------------------------------------------------------------------
  // validateCoupon

  /** What the validator answers for an accepted coupon. */
  datatype Quote = Quote(id: int, code: string, value: real, isPercent: bool, freeShipping: bool,
                         discount: real)

  /** `total * value / 100` for a percentage coupon, `value` otherwise; the
      discount is not capped at the order total. */
  function Discount(c: Coupon, orderTotal: real): real {
    if c.isPercent then (orderTotal * c.value) / 100.0 else c.value
  }

  /** A percentage of at most 100 never discounts more than the total; a
      fixed amount is taken whole, whatever the total. */
  lemma DiscountBounds(c: Coupon, orderTotal: real)
    ensures c.isPercent && 0.0 <= c.value <= 100.0 && orderTotal >= 0.0 ==>
      0.0 <= Discount(c, orderTotal) <= orderTotal
    ensures !c.isPercent ==> Discount(c, orderTotal) == c.value
  {
    if c.isPercent && 0.0 <= c.value <= 100.0 && orderTotal >= 0.0 {
      var part := orderTotal * c.value;
      var rest := orderTotal * (100.0 - c.value);
      assert 0.0 <= part && 0.0 <= rest by {
        MulNonNegative(orderTotal, c.value);
        MulNonNegative(orderTotal, 100.0 - c.value);
      }
      assert part + rest == orderTotal * 100.0;
      assert Discount(c, orderTotal) == part / 100.0;
    }
  }

  function MinimumMessage(amount: real, render: real -> string): string {
    "Minimum spend of " + render(amount) + " required for this coupon"
  }

  function MaximumMessage(amount: real, render: real -> string): string {
    "Maximum spend of " + render(amount) + " allowed for this coupon"
  }

  predicate BelowMinimum(c: Coupon, orderTotal: real) {
    TruthyReal(c.minimumSpend) && orderTotal < c.minimumSpend.value
  }

  predicate AboveMaximum(c: Coupon, orderTotal: real) {
    TruthyReal(c.maximumSpend) && orderTotal > c.maximumSpend.value
  }

  /** `validateCoupon`: lookup, per-coupon cap, per-customer cap, minimum
      spend, maximum spend, each reported only when the ones before pass.
      `render` is the decimal column's `toString`. The validator only reads:
      it returns a quote, never a new store. */
  function ValidateCoupon(db: Db, code: string, userId: UserId, orderTotal: real, now: Timestamp,
                          render: real -> string): (r: Result<Quote>)
    ensures var found := FindUsable(db.coupons, code, now);
      && (found.None? ==> r == Err(NotFound(CouponInactiveMessage)))
      && (found.Some? && GlobalCapHit(found.value) ==> r == Err(BadRequest(UsageLimitMessage)))
      && (found.Some? && !GlobalCapHit(found.value) && CustomerCapHit(db, found.value, userId)
          ==> r == Err(BadRequest(CustomerLimitMessage)))
      && (found.Some? && !GlobalCapHit(found.value) && !CustomerCapHit(db, found.value, userId)
          && BelowMinimum(found.value, orderTotal)
          ==> r == Err(BadRequest(MinimumMessage(found.value.minimumSpend.value, render))))
      && (found.Some? && !GlobalCapHit(found.value) && !CustomerCapHit(db, found.value, userId)
          && !BelowMinimum(found.value, orderTotal) && AboveMaximum(found.value, orderTotal)
          ==> r == Err(BadRequest(MaximumMessage(found.value.maximumSpend.value, render))))
    ensures var found := FindUsable(db.coupons, code, now);
      r.Ok? <==>
        && found.Some? && !GlobalCapHit(found.value) && !CustomerCapHit(db, found.value, userId)
        && !BelowMinimum(found.value, orderTotal) && !AboveMaximum(found.value, orderTotal)
    ensures r.Ok? ==>
      var c := FindUsable(db.coupons, code, now).value;
      && r.value.id == c.id
      && r.value.code == c.code
      && r.value.value == c.value
      && r.value.isPercent == c.isPercent
      && r.value.freeShipping == c.freeShipping
      && r.value.discount == Discount(c, orderTotal)
  {
    match FindUsable(db.coupons, code, now)
    case None => Err(NotFound(CouponInactiveMessage))
    case Some(c) =>
      if GlobalCapHit(c) then Err(BadRequest(UsageLimitMessage))
      else if CustomerCapHit(db, c, userId) then Err(BadRequest(CustomerLimitMessage))
      else if BelowMinimum(c, orderTotal) then Err(BadRequest(MinimumMessage(c.minimumSpend.value, render)))
      else if AboveMaximum(c, orderTotal) then Err(BadRequest(MaximumMessage(c.maximumSpend.value, render)))
      else Ok(Quote(c.id, c.code, c.value, c.isPercent, c.freeShipping, Discount(c, orderTotal)))
  }

  /** An accepted coupon is usable now, under both caps, and the order total
      lies within its (inclusive) spend bounds; a null or zero bound or limit
      is no bound. */
  lemma AcceptedCouponWithinBounds(db: Db, code: string, userId: UserId, orderTotal: real, now: Timestamp,
                                   render: real -> string)
    requires ValidateCoupon(db, code, userId, orderTotal, now, render).Ok?
    ensures var c := FindUsable(db.coupons, code, now).value;
      && Usable(c, code, now)
      && (Truthy(c.usageLimitPerCoupon) ==> c.used < c.usageLimitPerCoupon.value)
      && (Truthy(c.usageLimitPerCustomer) ==> CouponUses(db.orders, userId, c.id) < c.usageLimitPerCustomer.value)
      && (TruthyReal(c.minimumSpend) ==> c.minimumSpend.value <= orderTotal)
      && (TruthyReal(c.maximumSpend) ==> orderTotal <= c.maximumSpend.value)
  {
  }

  /** The converse: a coupon that the lookup finds, under both caps and with
      the total inside its spend bounds (both ends included) is accepted, and
      the quote describes that coupon. */
  lemma WithinBoundsIsAccepted(db: Db, code: string, userId: UserId, orderTotal: real, now: Timestamp,
                               render: real -> string)
    requires FindUsable(db.coupons, code, now).Some?
    requires var c := FindUsable(db.coupons, code, now).value;
      && (Truthy(c.usageLimitPerCoupon) ==> c.used < c.usageLimitPerCoupon.value)
      && (Truthy(c.usageLimitPerCustomer) ==> CouponUses(db.orders, userId, c.id) < c.usageLimitPerCustomer.value)
      && (TruthyReal(c.minimumSpend) ==> c.minimumSpend.value <= orderTotal)
      && (TruthyReal(c.maximumSpend) ==> orderTotal <= c.maximumSpend.value)
    ensures var c := FindUsable(db.coupons, code, now).value;
      var r := ValidateCoupon(db, code, userId, orderTotal, now, render);
      && r.Ok?
      && r.value == Quote(c.id, c.code, c.value, c.isPercent, c.freeShipping, Discount(c, orderTotal))
  {
  }

  /** Whatever the validator accepts, the code lookup also finds. */
  lemma ValidatedCouponIsFound(db: Db, code: string, userId: UserId, orderTotal: real, now: Timestamp,
                               render: real -> string)
    requires ValidateCoupon(db, code, userId, orderTotal, now, render).Ok?
    ensures FindCouponByCode(db, code, now).Ok?
    ensures FindCouponByCode(db, code, now).value.id == ValidateCoupon(db, code, userId, orderTotal, now, render).value.id
  {
  }

  lemma MulNonNegative(a: real, b: real)
    requires 0.0 <= a && 0.0 <= b
    ensures 0.0 <= a * b
  {
  }

  /** 10 percent of 20 is 2; a fixed coupon of 30 on a total of 20 discounts
      30, more than the total. */
  lemma DiscountExamples(c: Coupon)
    ensures Discount(c.(isPercent := true, value := 10.0), 20.0) == 2.0
    ensures Discount(c.(isPercent := false, value := 30.0), 20.0) == 30.0
  {
  }

  // ---------------------------------------------------------------------------
  // createCoupon

  const AdminCouponMessage := "Only admins can create coupons"
  const CodeExistsMessage := "Coupon code already exists"

  datatype CouponForm = CouponForm(
    code: string,
    value: real,
    isPercent: Option<bool>,
    freeShipping: Option<bool>,
    minimumSpend: Option<real>,
    maximumSpend: Option<real>,
    usageLimitPerCoupon: Option<int>,
    usageLimitPerCustomer: Option<int>,
    isActive: Option<bool>,
    startDate: Option<Timestamp>,
    endDate: Option<Timestamp>)

  /** `x || null` on an optional number: zero is stored as null. */
  function NullIfZero(x: Option<int>): (r: Option<int>)
    ensures r.Some? <==> Truthy(x)
    ensures r.Some? ==> r.value == x.value
  {
    if Truthy(x) then x else None
  }

  function NullIfZeroReal(x: Option<real>): (r: Option<real>)
    ensures r.Some? <==> TruthyReal(x)
    ensures r.Some? ==> r.value == x.value
  {
    if TruthyReal(x) then x else None
  }

  /** The row a form becomes. Dates are objects, so any given date is kept. */
  function NewCoupon(id: int, f: CouponForm): Coupon {
    Coupon(
      id := id,
      code := f.code,
      value := f.value,
      isPercent := f.isPercent.GetOr(false),
      freeShipping := f.freeShipping.GetOr(false),
      minimumSpend := NullIfZeroReal(f.minimumSpend),
      maximumSpend := NullIfZeroReal(f.maximumSpend),
      usageLimitPerCoupon := NullIfZero(f.usageLimitPerCoupon),
      usageLimitPerCustomer := NullIfZero(f.usageLimitPerCustomer),
      isActive := f.isActive.GetOr(true),
      startDate := f.startDate,
      endDate := f.endDate,
      used := 0)
  }

  predicate CodeExists(coupons: seq<Coupon>, code: string) {
    exists i :: 0 <= i < |coupons| && coupons[i].code == code
  }

  predicate CodesUnique(coupons: seq<Coupon>) {
    forall i, j :: 0 <= i < j < |coupons| ==> coupons[i].code != coupons[j].code
  }

  /** `createCoupon`: admin, then a new code; the row is appended. */
  function CreateCoupon(db: Db, f: CouponForm, adminId: UserId): (r: Result<Db>)
    ensures !Users.IsAdmin(db, adminId) ==> r == Err(Unauthorized(AdminCouponMessage))
    ensures Users.IsAdmin(db, adminId) && CodeExists(db.coupons, f.code) ==> r == Err(BadRequest(CodeExistsMessage))
    ensures r.Ok? <==> Users.IsAdmin(db, adminId) && !CodeExists(db.coupons, f.code)
    ensures r.Ok? ==>
      && r.value == db.(coupons := r.value.coupons)
      && |r.value.coupons| == |db.coupons| + 1
      && r.value.coupons[..|db.coupons|] == db.coupons
      && (forall i :: 0 <= i < |db.coupons| ==> db.coupons[i].id != r.value.coupons[|db.coupons|].id)
      && r.value.coupons[|db.coupons|] == NewCoupon(r.value.coupons[|db.coupons|].id, f)
  {
    if !Users.IsAdmin(db, adminId) then Err(Unauthorized(AdminCouponMessage))
    else if CodeExists(db.coupons, f.code) then Err(BadRequest(CodeExistsMessage))
    else
      var c := NewCoupon(NextId(db.coupons, (c: Coupon) => c.id), f);
      assert (db.coupons + [c])[..|db.coupons|] == db.coupons;
      Ok(db.(coupons := db.coupons + [c]))
  }

  /** Coupon creation keeps codes unique, and the row it appends: code and
      value as given, unused; the flags as given, otherwise not a percentage,
      no free shipping and active; a spend bound or limit stored iff truthy,
      and then as given; dates as given. */
  lemma CreateCouponDefaults(db: Db, f: CouponForm, adminId: UserId)
    requires CodesUnique(db.coupons)
    requires CreateCoupon(db, f, adminId).Ok?
    ensures var cs := CreateCoupon(db, f, adminId).value.coupons;
      var c := cs[|cs| - 1];
      && CodesUnique(cs)
      && c.code == f.code && c.value == f.value && c.used == 0
      && c.isPercent == (f.isPercent == Some(true))
      && c.freeShipping == (f.freeShipping == Some(true))
      && c.isActive == (f.isActive != Some(false))
      && (c.minimumSpend.Some? <==> TruthyReal(f.minimumSpend))
      && (c.minimumSpend.Some? ==> c.minimumSpend.value == f.minimumSpend.value)
      && (c.maximumSpend.Some? <==> TruthyReal(f.maximumSpend))
      && (c.maximumSpend.Some? ==> c.maximumSpend.value == f.maximumSpend.value)
      && (c.usageLimitPerCoupon.Some? <==> Truthy(f.usageLimitPerCoupon))
      && (c.usageLimitPerCoupon.Some? ==> c.usageLimitPerCoupon.value == f.usageLimitPerCoupon.value)
      && (c.usageLimitPerCustomer.Some? <==> Truthy(f.usageLimitPerCustomer))
      && (c.usageLimitPerCustomer.Some? ==> c.usageLimitPerCustomer.value == f.usageLimitPerCustomer.value)
      && c.startDate == f.startDate && c.endDate == f.endDate
  {
  }

  /** A freshly created coupon has no usage cap hit; with unique codes the
      lookup of its code finds it whenever it is in its window. */
  lemma CreatedCouponIsFound(db: Db, f: CouponForm, adminId: UserId, now: Timestamp)
    requires CodesUnique(db.coupons)
    requires CreateCoupon(db, f, adminId).Ok?
    requires f.isActive != Some(false)
    requires f.usageLimitPerCoupon.Some? ==> f.usageLimitPerCoupon.value > 0
    requires f.startDate.Some? && f.endDate.Some? && f.startDate.value <= now <= f.endDate.value
    ensures var after := CreateCoupon(db, f, adminId).value;
      && FindCouponByCode(after, f.code, now).Ok?
      && FindCouponByCode(after, f.code, now).value == after.coupons[|after.coupons| - 1]
  {
    var after := CreateCoupon(db, f, adminId).value;
    var cs := after.coupons;
    var c := cs[|cs| - 1];
    assert Usable(c, f.code, now);
    assert forall i :: 0 <= i < |cs| - 1 ==> !Usable(cs[i], f.code, now) by {
      forall i | 0 <= i < |cs| - 1 ensures !Usable(cs[i], f.code, now) {
        assert cs[i] == db.coupons[i];
      }
    }
    FindUsableLast(cs, f.code, now);
  }

  lemma {:induction false} FindUsableLast(coupons: seq<Coupon>, code: string, now: Timestamp)
    requires |coupons| > 0 && Usable(coupons[|coupons| - 1], code, now)
    requires forall i :: 0 <= i < |coupons| - 1 ==> !Usable(coupons[i], code, now)
    ensures FindUsable(coupons, code, now) == Some(coupons[|coupons| - 1])
    decreases |coupons|
  {
    if |coupons| > 1 {
      FindUsableLast(coupons[1..], code, now);
    }
  }

  // ---------------------------------------------------------------------------
  // Flash sales

  const AdminCreateSaleMessage := "Only admins can create flash sales"
  const AdminUpdateSaleMessage := "Only admins can update flash sales"
  const SaleNotFoundMessage := "Flash sale not found"

  datatype SaleEntryForm = SaleEntryForm(productId: ProductId, endDate: Timestamp, price: real,
                                         quantity: Option<int>, position: Option<int>)

  /** The entry rows for a sale, in the order given; a missing quantity or
      position is stored as 0. */
  function Entries(saleId: int, forms: seq<SaleEntryForm>): (r: seq<FlashSaleProduct>)
    ensures |r| == |forms|
    ensures forall i :: 0 <= i < |r| ==>
      && r[i].flashSaleId == saleId
      && r[i].productId == forms[i].productId
      && r[i].endDate == forms[i].endDate
      && r[i].price == forms[i].price
      && r[i].qty == (if Truthy(forms[i].quantity) then forms[i].quantity.value else 0)
      && r[i].position == (if Truthy(forms[i].position) then forms[i].position.value else 0)
    decreases |forms|
  {
    if |forms| == 0 then []
    else
      var f := forms[0];
      [FlashSaleProduct(saleId, f.productId, f.endDate, f.price,
                        if Truthy(f.quantity) then f.quantity.value else 0,
                        if Truthy(f.position) then f.position.value else 0)]
      + Entries(saleId, forms[1..])
  }

  predicate HasSale(db: Db, id: int) {
    exists i :: 0 <= i < |db.flashSales| && db.flashSales[i].id == id
  }

  function OfSale(entries: seq<FlashSaleProduct>, id: int): seq<FlashSaleProduct> {
    Filter(entries, (e: FlashSaleProduct) => e.flashSaleId == id)
  }

  function NotOfSale(entries: seq<FlashSaleProduct>, id: int): seq<FlashSaleProduct> {
    Filter(entries, (e: FlashSaleProduct) => e.flashSaleId != id)
  }

  /** `createFlashSale`: admin only; a new sale row, then its entries when a
      non-empty list is given. Returns the new store and the sale's id. */
  function CreateFlashSale(db: Db, products: Option<seq<SaleEntryForm>>, adminId: UserId, now: Timestamp)
    : (r: Result<(Db, int)>)
    ensures !Users.IsAdmin(db, adminId) <==> r == Err(Unauthorized(AdminCreateSaleMessage))
    ensures r.Ok? ==>
      && !HasSale(db, r.value.1)
      && HasSale(r.value.0, r.value.1)
      && |db.flashSaleProducts| <= |r.value.0.flashSaleProducts|
      && r.value.0 == db.(flashSales := r.value.0.flashSales, flashSaleProducts := r.value.0.flashSaleProducts)
      && r.value.0.flashSaleProducts[..|db.flashSaleProducts|] == db.flashSaleProducts
    ensures r.Ok? ==>
      && r.value.0.flashSales == db.flashSales + [FlashSale(r.value.1, now, now)]
      && r.value.0.flashSaleProducts[|db.flashSaleProducts|..]
         == (if products.Some? && |products.value| > 0 then Entries(r.value.1, products.value) else [])
  {
    if !Users.IsAdmin(db, adminId) then Err(Unauthorized(AdminCreateSaleMessage))
    else
      var id := NextId(db.flashSales, (s: FlashSale) => s.id);
      var sales := db.flashSales + [FlashSale(id, now, now)];
      assert sales[|db.flashSales|].id == id;
      var added := if products.Some? && |products.value| > 0 then Entries(id, products.value) else [];
      assert (db.flashSaleProducts + added)[..|db.flashSaleProducts|] == db.flashSaleProducts;
      Ok((db.(flashSales := sales, flashSaleProducts := db.flashSaleProducts + added), id))
  }

  /** With entries pointing only at existing sales, the new sale's entries
      are exactly the ones given. */
  lemma CreatedSaleEntries(db: Db, products: Option<seq<SaleEntryForm>>, adminId: UserId, now: Timestamp)
    requires forall i :: 0 <= i < |db.flashSaleProducts| ==> HasSale(db, db.flashSaleProducts[i].flashSaleId)
    requires CreateFlashSale(db, products, adminId, now).Ok?
    ensures var (after, id) := CreateFlashSale(db, products, adminId, now).value;
      OfSale(after.flashSaleProducts, id) == (if products.Some? then Entries(id, products.value) else [])
  {
    var (after, id) := CreateFlashSale(db, products, adminId, now).value;
    var added := if products.Some? && |products.value| > 0 then Entries(id, products.value) else [];
    FilterAppend(db.flashSaleProducts, added, (e: FlashSaleProduct) => e.flashSaleId == id);
    FilterNone(db.flashSaleProducts, (e: FlashSaleProduct) => e.flashSaleId == id);
    FilterAll(added, (e: FlashSaleProduct) => e.flashSaleId == id);
  }

  /** `updateFlashSale`: admin, then existence; the sale's update time is
      stamped, and a given product list (even an empty one) replaces the
      sale's entries while an omitted one leaves them. */
  function UpdateFlashSale(db: Db, id: int, products: Option<seq<SaleEntryForm>>, adminId: UserId,
                           now: Timestamp): (r: Result<Db>)
    ensures !Users.IsAdmin(db, adminId) ==> r == Err(Unauthorized(AdminUpdateSaleMessage))
    ensures Users.IsAdmin(db, adminId) && !HasSale(db, id) ==> r == Err(NotFound(SaleNotFoundMessage))
    ensures r.Ok? <==> Users.IsAdmin(db, adminId) && HasSale(db, id)
    ensures r.Ok? ==>
      && r.value == db.(flashSales := r.value.flashSales, flashSaleProducts := r.value.flashSaleProducts)
      && |r.value.flashSales| == |db.flashSales|
      && (forall i :: 0 <= i < |db.flashSales| ==>
            r.value.flashSales[i] == if db.flashSales[i].id == id then db.flashSales[i].(updatedAt := now)
                                     else db.flashSales[i])
      && (products.None? ==> r.value.flashSaleProducts == db.flashSaleProducts)
  {
    if !Users.IsAdmin(db, adminId) then Err(Unauthorized(AdminUpdateSaleMessage))
    else if !HasSale(db, id) then Err(NotFound(SaleNotFoundMessage))
    else
      var sales := Stamp(db.flashSales, id, now);
      var entries := if products.Some?
        then NotOfSale(db.flashSaleProducts, id) + Entries(id, products.value)
        else db.flashSaleProducts;
      Ok(db.(flashSales := sales, flashSaleProducts := entries))
  }

  function Stamp(sales: seq<FlashSale>, id: int, now: Timestamp): (r: seq<FlashSale>)
    ensures |r| == |sales|
    ensures forall i :: 0 <= i < |r| ==> r[i] == if sales[i].id == id then sales[i].(updatedAt := now) else sales[i]
    decreases |sales|
  {
    if |sales| == 0 then []
    else [if sales[0].id == id then sales[0].(updatedAt := now) else sales[0]] + Stamp(sales[1..], id, now)
  }

  /** A given product list becomes exactly the sale's entries, and every other
      sale's entries stay as they were, in their order. */
  lemma UpdateReplacesEntries(db: Db, id: int, forms: seq<SaleEntryForm>, adminId: UserId, now: Timestamp)
    requires UpdateFlashSale(db, id, Some(forms), adminId, now).Ok?
    ensures var entries := UpdateFlashSale(db, id, Some(forms), adminId, now).value.flashSaleProducts;
      && OfSale(entries, id) == Entries(id, forms)
      && NotOfSale(entries, id) == NotOfSale(db.flashSaleProducts, id)
  {
    var kept := NotOfSale(db.flashSaleProducts, id);
    var added := Entries(id, forms);
    var isThis := (e: FlashSaleProduct) => e.flashSaleId == id;
    var isOther := (e: FlashSaleProduct) => e.flashSaleId != id;
    FilterAppend(kept, added, isThis);
    FilterAppend(kept, added, isOther);
    FilterNone(kept, isThis);
    FilterAll(added, isThis);
    FilterNone(added, isOther);
    FilterAll(kept, isOther);
  }

  // ---------------------------------------------------------------------------
  // findActiveFlashSales

  /** The listing's filter as written: the entry has not ended, and its sale
      has some entry that has not ended. */
  predicate Live(db: Db, e: FlashSaleProduct, now: Timestamp) {
    && e.endDate >= now
    && HasSale(db, e.flashSaleId)
    && exists i :: 0 <= i < |db.flashSaleProducts| && db.flashSaleProducts[i].flashSaleId == e.flashSaleId
         && db.flashSaleProducts[i].endDate >= now
  }

  function Position(e: FlashSaleProduct): int {
    e.position
  }

  /** `findActiveFlashSales`: the live entries, by position ascending. */
  function FindActiveFlashSales(db: Db, now: Timestamp): (r: seq<FlashSaleProduct>)
    ensures SortedBy(r, Position)
    ensures multiset(r) == multiset(Filter(db.flashSaleProducts, (e: FlashSaleProduct) => Live(db, e, now)))
  {
    SortBy(Filter(db.flashSaleProducts, (e: FlashSaleProduct) => Live(db, e, now)), Position)
  }

  /** The condition on the sale adds nothing for an entry of the table whose
      sale exists: the entry itself is the sale's entry that has not ended.
      So the listing holds exactly the table's unexpired entries. */
  lemma ActiveMeansUnexpired(db: Db, now: Timestamp, e: FlashSaleProduct)
    requires forall i :: 0 <= i < |db.flashSaleProducts| ==> HasSale(db, db.flashSaleProducts[i].flashSaleId)
    ensures e in FindActiveFlashSales(db, now) <==> e in db.flashSaleProducts && e.endDate >= now
  {
    var live := Filter(db.flashSaleProducts, (x: FlashSaleProduct) => Live(db, x, now));
    var r := FindActiveFlashSales(db, now);
    assert e in r <==> e in live by {
      assert e in r <==> e in multiset(r);
    }
    if e in db.flashSaleProducts && e.endDate >= now {
      var i :| 0 <= i < |db.flashSaleProducts| && db.flashSaleProducts[i] == e;
      assert Live(db, e, now);
    }
  }

  // ---------------------------------------------------------------------------
  // Coupons and checkout

  /** Checkout records no coupon on the order and leaves the coupon table
      alone, so every coupon validates exactly as it did before. */
  lemma CheckoutLeavesCouponsAlone(db: Db, userId: UserId, form: Checkout.CheckoutForm, now: Timestamp,
                                   code: string, customer: UserId, orderTotal: real, at: Timestamp,
                                   render: real -> string)
    requires Checkout.PlaceOrder(db, userId, form, now).Ok?
    ensures var after := Checkout.PlaceOrder(db, userId, form, now).value.db;
      ValidateCoupon(after, code, customer, orderTotal, at, render) == ValidateCoupon(db, code, customer, orderTotal, at, render)
  {
    var after := Checkout.PlaceOrder(db, userId, form, now).value.db;
    var added := after.orders[|db.orders|..];
    assert after.orders == db.orders + added;
    assert added == [after.orders[|db.orders|]];
    forall c: int | true
      ensures CouponUses(after.orders, customer, c) == CouponUses(db.orders, customer, c)
    {
      var keep := (o: Order) => o.customerId == customer && o.couponId == Some(c);
      FilterAppend(db.orders, added, keep);
      FilterNone(added, keep);
    }
  }
}

=== FILE: store.dfy ===
/** The database the services talk to, as one immutable value. Each field is a
    table; rows whose order the services observe (`findFirst`, listings) are
    kept in sequences in insertion order, tables that are only probed by key are
    maps or sets. Time is an integer timestamp passed in by the caller. */
module Store {
  import opened Common

  type UserId = int
  type ProductId = int
  type Timestamp = int

  /** bcrypt, idealised: hashing is injective and `compare(p, Bcrypt(q))`
      holds exactly when `p == q`. Salt and cost are not modelled. */
  datatype PasswordHash = Bcrypt(plain: string)

  predicate PasswordMatches(plain: string, hash: PasswordHash) {
    hash.plain == plain
  }

  datatype User = User(
    firstName: string,
    lastName: string,
    email: string,
    phone: string,
    password: PasswordHash,
    createdAt: Timestamp,
    updatedAt: Timestamp)

  /** A role row. `permissions` is a nullable text column, searched with
      substring `includes`. */
  datatype Role = Role(permissions: Option<string>)

  /** Activations and password reminders share one shape: a single-use code
      issued to a user. */
  datatype CodeRecord = CodeRecord(
    id: int,
    userId: UserId,
    code: string,
    completed: bool,
    completedAt: Option<Timestamp>)

  datatype Address = Address(id: int, customerId: UserId)

  datatype Product = Product(
    isActive: bool,
    price: real,
    manageStock: bool,
    qty: Option<int>,
    name: Option<string>)

  /** One entry of the JSON cart payload. */
  datatype CartLine = CartLine(
    productId: ProductId,
    quantity: int,
    variant: Option<string>,
    options: Option<string>)

  /** A stored cart. `items` is `None` when the JSON payload carries no
      `items` array (an empty or `{}` payload). */
  datatype CartRecord = CartRecord(items: Option<seq<CartLine>>)

  datatype Order = Order(
    id: int,
    customerId: UserId,
    customerEmail: string,
    billingAddress: string,
    shippingAddress: string,
    subTotal: real,
    shippingCost: real,
    discount: real,
    total: real,
    paymentMethod: string,
    currency: string,
    status: string,
    note: string,
    couponId: Option<int>,
    createdAt: Timestamp,
    updatedAt: Timestamp)

  datatype OrderLine = OrderLine(
    orderId: int,
    productId: ProductId,
    unitPrice: real,
    qty: int,
    lineTotal: real)

  datatype Coupon = Coupon(
    id: int,
    code: string,
    value: real,
    isPercent: bool,
    freeShipping: bool,
    minimumSpend: Option<real>,
    maximumSpend: Option<real>,
    usageLimitPerCoupon: Option<int>,
    usageLimitPerCustomer: Option<int>,
    isActive: bool,
    startDate: Option<Timestamp>,
    endDate: Option<Timestamp>,
    used: int)

  datatype FlashSale = FlashSale(id: int, createdAt: Timestamp, updatedAt: Timestamp)

  datatype FlashSaleProduct = FlashSaleProduct(
    flashSaleId: int,
    productId: ProductId,
    endDate: Timestamp,
    price: real,
    qty: int,
    position: int)

  datatype Db = Db(
    users: map<UserId, User>,
    roles: map<int, Role>,
    userRoles: set<(UserId, int)>,
    activations: seq<CodeRecord>,
    reminders: seq<CodeRecord>,
    persistences: map<string, UserId>,
    profiles: set<UserId>,
    addresses: seq<Address>,
    defaultAddresses: seq<Address>,
    wishLists: set<(UserId, ProductId)>,
    products: map<ProductId, Product>,
    carts: map<UserId, CartRecord>,
    orders: seq<Order>,
    orderLines: seq<OrderLine>,
    coupons: seq<Coupon>,
    flashSales: seq<FlashSale>,
    flashSaleProducts: seq<FlashSaleProduct>)

  /** `users.email` is a unique column. */
  predicate EmailsUnique(users: map<UserId, User>) {
    forall a, b :: a in users && b in users && a != b ==> users[a].email != users[b].email
  }

  predicate EmailTaken(users: map<UserId, User>, email: string) {
    exists u :: u in users && users[u].email == email
  }

  /** `products.findUnique({ id, is_active: true })`. */
  predicate ActiveProduct(db: Db, id: ProductId) {
    id in db.products && db.products[id].isActive
  }

  /** The stock check the cart and checkout share: the product tracks stock,
      has a non-null quantity, and that quantity is below the request. */
  predicate StockShort(p: Product, requested: int) {
    p.manageStock && p.qty.Some? && p.qty.value < requested
  }
}

=== FILE: users.dfy ===
/** The user service: accounts with unique emails, self-or-admin access, a
    checked delete that cascades over the user's rows, and roles as a set of
    (user, role) pairs. */
module Users {
  import opened Common
  import opened Store

  // ---------------------------------------------------------------------------
  // Admin check

  /** The roles joined to the user's role assignments. */
  predicate HoldsRole(db: Db, userId: UserId, roleId: int) {
    (userId, roleId) in db.userRoles && roleId in db.roles
  }

  /** `permissions?.includes(word)`: a null column includes nothing. */
  predicate Mentions(r: Role, word: string) {
    r.permissions.Some? && Contains(r.permissions.value, word)
  }

  /** `isAdmin`: some role of the user mentions "admin" or "superadmin". */
  predicate IsAdmin(db: Db, userId: UserId) {
    exists p :: p in db.userRoles && p.0 == userId && p.1 in db.roles
      && (Mentions(db.roles[p.1], "admin") || Mentions(db.roles[p.1], "superadmin"))
  }

  /** The "superadmin" test adds nothing: the check holds exactly when some role
      of the user mentions "admin". */
  lemma IsAdminMeansAdminMention(db: Db, userId: UserId)
    ensures IsAdmin(db, userId) <==>
      exists roleId :: HoldsRole(db, userId, roleId) && Mentions(db.roles[roleId], "admin")
  {
    if IsAdmin(db, userId) {
      var p :| p in db.userRoles && p.0 == userId && p.1 in db.roles
        && (Mentions(db.roles[p.1], "admin") || Mentions(db.roles[p.1], "superadmin"));
      if !Mentions(db.roles[p.1], "admin") {
        SuperadminMentionsAdmin(db.roles[p.1].permissions.value);
      }
      assert HoldsRole(db, userId, p.1);
    }
  }

  /** A role whose permissions mention "superadmin" makes its holder an admin. */
  lemma SuperadminIsAdmin(db: Db, userId: UserId, roleId: int)
    requires HoldsRole(db, userId, roleId) && Mentions(db.roles[roleId], "superadmin")
    ensures IsAdmin(db, userId)
  {
    assert (userId, roleId) in db.userRoles;
  }

  // ---------------------------------------------------------------------------
  // create

  const EmailExistsMessage := "User with this email already exists"
  const UserNotFoundMessage := "User not found"

  datatype NewUser = NewUser(firstName: string, lastName: string, email: string,
                             phone: Option<string>, password: string)

  /** A user as the service returns it: every column but the password. */
  datatype PublicUser = PublicUser(id: UserId, firstName: string, lastName: string, email: string,
                                   phone: string, createdAt: Timestamp, updatedAt: Timestamp)

  function Public(id: UserId, u: User): PublicUser {
    PublicUser(id, u.firstName, u.lastName, u.email, u.phone, u.createdAt, u.updatedAt)
  }

  /** `create`: a taken email is refused; the row gets the bcrypt hash of the
      password and an empty phone when none is given. `id` is the identifier
      the database assigns. */
  function Create(db: Db, form: NewUser, id: UserId, now: Timestamp): (r: Result<(Db, PublicUser)>)
    requires id !in db.users
    ensures EmailTaken(db.users, form.email) <==> r == Err(BadRequest(EmailExistsMessage))
    ensures r.Err? ==> r.error == BadRequest(EmailExistsMessage)
    ensures r.Ok? ==>
      && r.value.0 == db.(users := r.value.0.users)
      && r.value.0.users.Keys == db.users.Keys + {id}
      && (forall u :: u in db.users ==> r.value.0.users[u] == db.users[u])
      && PasswordMatches(form.password, r.value.0.users[id].password)
      && r.value.1 == Public(id, r.value.0.users[id])
      && r.value.1.email == form.email
  {
    if EmailTaken(db.users, form.email) then Err(BadRequest(EmailExistsMessage))
    else
      var u := User(form.firstName, form.lastName, form.email, OrElse(form.phone, ""),
                    Bcrypt(form.password), now, now);
      Ok((db.(users := db.users[id := u]), Public(id, u)))
  }

  /** Creating a user keeps emails unique. */
  lemma CreateKeepsEmailsUnique(db: Db, form: NewUser, id: UserId, now: Timestamp)
    requires id !in db.users && EmailsUnique(db.users)
    requires Create(db, form, id, now).Ok?
    ensures EmailsUnique(Create(db, form, id, now).value.0.users)
  {
  }

  // ---------------------------------------------------------------------------
  // findOne / update

  const OwnProfileMessage := "You can only access your own profile"
  const OwnUpdateMessage := "You can only update your own profile"
  const EmailTakenMessage := "Email already taken by another user"

  /** Self-or-admin: a non-admin may only address their own id. */
  predicate MayAccess(id: UserId, requester: UserId, isAdmin: bool) {
    isAdmin || requester == id
  }

  /** `findOne`: the access rule is checked before the lookup, so a
      non-admin learns nothing about other ids. */
  function FindOne(db: Db, id: UserId, requester: UserId, isAdmin: bool): (r: Result<PublicUser>)
    ensures !MayAccess(id, requester, isAdmin) ==> r == Err(Unauthorized(OwnProfileMessage))
    ensures MayAccess(id, requester, isAdmin) && id !in db.users ==> r == Err(NotFound(UserNotFoundMessage))
    ensures r.Ok? <==> MayAccess(id, requester, isAdmin) && id in db.users
    ensures r.Ok? ==> r.value.id == id && r.value.email == db.users[id].email
  {
    if !MayAccess(id, requester, isAdmin) then Err(Unauthorized(OwnProfileMessage))
    else if id !in db.users then Err(NotFound(UserNotFoundMessage))
    else Ok(Public(id, db.users[id]))
  }

  /** The update payload; an absent field is left alone. */
  datatype UserChanges = UserChanges(firstName: Option<string>, lastName: Option<string>,
                                     email: Option<string>, phone: Option<string>,
                                     password: Option<string>)

  /** The row after the changes: supplied fields overwrite, the password is
      rehashed only when a non-empty one is supplied. */
  function Apply(u: User, c: UserChanges, now: Timestamp): User {
    User(
      firstName := c.firstName.GetOr(u.firstName),
      lastName := c.lastName.GetOr(u.lastName),
      email := c.email.GetOr(u.email),
      phone := c.phone.GetOr(u.phone),
      password := if TruthyString(c.password) then Bcrypt(c.password.value) else u.password,
      createdAt := u.createdAt,
      updatedAt := now)
  }

  /** Another row already holds `email`. */
  predicate HeldByOther(users: map<UserId, User>, id: UserId, email: string) {
    exists u :: u in users && u != id && users[u].email == email
  }

  /** `update`: access, existence, then the service's email check, which only
      looks at non-empty emails that differ from the current one; the unique
      column refuses any remaining clash (an empty email held by another row)
      with Prisma's unique-constraint error. */
  function Update(db: Db, id: UserId, c: UserChanges, requester: UserId, isAdmin: bool,
                  now: Timestamp): (r: Result<Db>)
    requires EmailsUnique(db.users)
    ensures !MayAccess(id, requester, isAdmin) ==> r == Err(Unauthorized(OwnUpdateMessage))
    ensures MayAccess(id, requester, isAdmin) && id !in db.users ==> r == Err(NotFound(UserNotFoundMessage))
    ensures MayAccess(id, requester, isAdmin) && id in db.users && TruthyString(c.email)
            && HeldByOther(db.users, id, c.email.value)
            ==> r == Err(BadRequest(EmailTakenMessage))
    ensures r.Ok? <==>
      && MayAccess(id, requester, isAdmin)
      && id in db.users
      && !(c.email.Some? && HeldByOther(db.users, id, c.email.value))
    ensures r.Ok? ==> r.value == db.(users := db.users[id := Apply(db.users[id], c, now)])
  {
    if !MayAccess(id, requester, isAdmin) then Err(Unauthorized(OwnUpdateMessage))
    else if id !in db.users then Err(NotFound(UserNotFoundMessage))
    else if TruthyString(c.email) && c.email.value != db.users[id].email && EmailTaken(db.users, c.email.value)
    then Err(BadRequest(EmailTakenMessage))
    else if c.email.Some? && HeldByOther(db.users, id, c.email.value) then Err(Database("P2002"))
    else Ok(db.(users := db.users[id := Apply(db.users[id], c, now)]))
  }

  /** A successful update keeps emails unique, touches no other user, and
      leaves every field that was not supplied as it was. */
  lemma UpdateKeepsEmailsUnique(db: Db, id: UserId, c: UserChanges, requester: UserId, isAdmin: bool,
                                now: Timestamp)
    requires EmailsUnique(db.users)
    requires Update(db, id, c, requester, isAdmin, now).Ok?
    ensures var users := Update(db, id, c, requester, isAdmin, now).value.users;
      && EmailsUnique(users)
      && users.Keys == db.users.Keys
      && (forall u :: u in db.users && u != id ==> users[u] == db.users[u])
      && (c.firstName.None? ==> users[id].firstName == db.users[id].firstName)
      && (c.email.None? ==> users[id].email == db.users[id].email)
      && (!TruthyString(c.password) ==> users[id].password == db.users[id].password)
  {
  }

  /** A new non-empty password replaces the old one: afterwards the new one
      matches and the old one matches only if it was the same. */
  lemma UpdatePasswordTakesEffect(db: Db, id: UserId, c: UserChanges, requester: UserId, isAdmin: bool,
                                  now: Timestamp, guess: string)
    requires EmailsUnique(db.users)
    requires Update(db, id, c, requester, isAdmin, now).Ok? && TruthyString(c.password)
    ensures var u := Update(db, id, c, requester, isAdmin, now).value.users[id];
      && PasswordMatches(c.password.value, u.password)
      && (PasswordMatches(guess, u.password) <==> guess == c.password.value)
  {
  }

  // ---------------------------------------------------------------------------
  // remove

  const AdminDeleteMessage := "Only admins can delete users"
  const SelfDeleteMessage := "You cannot delete your own account"

  /** No table row the delete cascades over refers to `id`. */
  predicate NoRowsOf(db: Db, id: UserId) {
    && id !in db.users
    && (forall p :: p in db.userRoles ==> p.0 != id)
    && (forall i :: 0 <= i < |db.activations| ==> db.activations[i].userId != id)
    && (forall i :: 0 <= i < |db.reminders| ==> db.reminders[i].userId != id)
    && (forall i :: 0 <= i < |db.addresses| ==> db.addresses[i].customerId != id)
    && (forall i :: 0 <= i < |db.defaultAddresses| ==> db.defaultAddresses[i].customerId != id)
    && (forall p :: p in db.wishLists ==> p.0 != id)
  }

  /** The rows of another user `v` that the cascade reaches, all still present. */
  predicate KeepsRowsOf(before: Db, after: Db, v: UserId) {
    && (v in before.users ==> v in after.users && after.users[v] == before.users[v])
    && (forall p :: p in before.userRoles && p.0 == v ==> p in after.userRoles)
    && (forall i :: 0 <= i < |before.activations| && before.activations[i].userId == v
          ==> before.activations[i] in after.activations)
    && (forall i :: 0 <= i < |before.reminders| && before.reminders[i].userId == v
          ==> before.reminders[i] in after.reminders)
    && (forall i :: 0 <= i < |before.addresses| && before.addresses[i].customerId == v
          ==> before.addresses[i] in after.addresses)
    && (forall i :: 0 <= i < |before.defaultAddresses| && before.defaultAddresses[i].customerId == v
          ==> before.defaultAddresses[i] in after.defaultAddresses)
    && (forall p :: p in before.wishLists && p.0 == v ==> p in after.wishLists)
  }

  /** The cascade: role assignments, activations, addresses, default
      addresses, reminders and bookmarks of the user, then the user. */
  function Cascade(db: Db, id: UserId): Db {
    var roles := set p | p in db.userRoles && p.0 != id;
    var bookmarks := set p | p in db.wishLists && p.0 != id;
    db.(
      userRoles := roles,
      activations := Filter(db.activations, (a: CodeRecord) => a.userId != id),
      addresses := Filter(db.addresses, (a: Address) => a.customerId != id),
      defaultAddresses := Filter(db.defaultAddresses, (a: Address) => a.customerId != id),
      reminders := Filter(db.reminders, (a: CodeRecord) => a.userId != id),
      wishLists := bookmarks,
      users := db.users - {id})
  }

  /** `remove`: admin, then existence, then not oneself; only then the
      cascade. */
  function Remove(db: Db, id: UserId, requester: UserId, isAdmin: bool): (r: Result<Db>)
    ensures !isAdmin ==> r == Err(Unauthorized(AdminDeleteMessage))
    ensures isAdmin && id !in db.users ==> r == Err(NotFound(UserNotFoundMessage))
    ensures isAdmin && id in db.users && requester == id ==> r == Err(BadRequest(SelfDeleteMessage))
    ensures r.Ok? <==> isAdmin && id in db.users && requester != id
    ensures r.Ok? ==> NoRowsOf(r.value, id)
    ensures r.Ok? ==> forall v :: v != id ==> KeepsRowsOf(db, r.value, v)
    ensures r.Ok? ==>
      r.value == db.(users := r.value.users, userRoles := r.value.userRoles,
                     activations := r.value.activations, reminders := r.value.reminders,
                     addresses := r.value.addresses, defaultAddresses := r.value.defaultAddresses,
                     wishLists := r.value.wishLists)
    ensures r.Ok? ==>
      && r.value.users == db.users - {id}
      && r.value.userRoles <= db.userRoles && r.value.wishLists <= db.wishLists
      && (forall i :: 0 <= i < |r.value.defaultAddresses| ==> r.value.defaultAddresses[i] in db.defaultAddresses)
      && (forall i :: 0 <= i < |r.value.addresses| ==> r.value.addresses[i] in db.addresses)
      && (forall i :: 0 <= i < |r.value.activations| ==> r.value.activations[i] in db.activations)
      && (forall i :: 0 <= i < |r.value.reminders| ==> r.value.reminders[i] in db.reminders)
  {
    if !isAdmin then Err(Unauthorized(AdminDeleteMessage))
    else if id !in db.users then Err(NotFound(UserNotFoundMessage))
    else if requester == id then Err(BadRequest(SelfDeleteMessage))
    else Ok(Cascade(db, id))
  }

  /** The cascade removes rows and never adds any: every surviving row was
      there before. */
  lemma RemoveOnlyDeletes(db: Db, id: UserId, requester: UserId, isAdmin: bool)
    requires Remove(db, id, requester, isAdmin).Ok?
    ensures var after := Remove(db, id, requester, isAdmin).value;
      && after.userRoles <= db.userRoles
      && after.wishLists <= db.wishLists
      && after.users.Keys <= db.users.Keys
      && (forall i :: 0 <= i < |after.activations| ==> after.activations[i] in db.activations)
      && (forall i :: 0 <= i < |after.addresses| ==> after.addresses[i] in db.addresses)
      && |after.reminders| <= |db.reminders|
  {
  }

  // ---------------------------------------------------------------------------
  // assignRole / removeRole

  const AdminAssignMessage := "Only admins can assign roles"
  const AdminRemoveRoleMessage := "Only admins can remove roles"
  const RoleNotFoundMessage := "Role not found"
  const AlreadyAssignedMessage := "Role already assigned to user"
  const NotAssignedMessage := "Role not assigned to user"

  /** `assignRole`: admin, user, role, then the pair must be new. */
  function AssignRole(db: Db, userId: UserId, roleId: int, adminId: UserId): (r: Result<Db>)
    ensures !IsAdmin(db, adminId) ==> r == Err(Unauthorized(AdminAssignMessage))
    ensures IsAdmin(db, adminId) && userId !in db.users ==> r == Err(NotFound(UserNotFoundMessage))
    ensures IsAdmin(db, adminId) && userId in db.users && roleId !in db.roles ==>
      r == Err(NotFound(RoleNotFoundMessage))
    ensures r.Ok? <==>
      IsAdmin(db, adminId) && userId in db.users && roleId in db.roles && (userId, roleId) !in db.userRoles
    ensures r.Ok? ==>
      && r.value.userRoles - db.userRoles == {(userId, roleId)}
      && db.userRoles <= r.value.userRoles
      && r.value == db.(userRoles := r.value.userRoles)
  {
    if !IsAdmin(db, adminId) then Err(Unauthorized(AdminAssignMessage))
    else if userId !in db.users then Err(NotFound(UserNotFoundMessage))
    else if roleId !in db.roles then Err(NotFound(RoleNotFoundMessage))
    else if (userId, roleId) in db.userRoles then Err(BadRequest(AlreadyAssignedMessage))
    else Ok(db.(userRoles := db.userRoles + {(userId, roleId)}))
  }

  /** `removeRole`: admin, user, role, then the pair must exist. */
  function RemoveRole(db: Db, userId: UserId, roleId: int, adminId: UserId): (r: Result<Db>)
    ensures !IsAdmin(db, adminId) ==> r == Err(Unauthorized(AdminRemoveRoleMessage))
    ensures IsAdmin(db, adminId) && userId !in db.users ==> r == Err(NotFound(UserNotFoundMessage))
    ensures IsAdmin(db, adminId) && userId in db.users && roleId !in db.roles ==>
      r == Err(NotFound(RoleNotFoundMessage))
    ensures r.Ok? <==>
      IsAdmin(db, adminId) && userId in db.users && roleId in db.roles && (userId, roleId) in db.userRoles
    ensures r.Ok? ==>
      && db.userRoles - r.value.userRoles == {(userId, roleId)}
      && r.value.userRoles <= db.userRoles
      && r.value == db.(userRoles := r.value.userRoles)
  {
    if !IsAdmin(db, adminId) then Err(Unauthorized(AdminRemoveRoleMessage))
    else if userId !in db.users then Err(NotFound(UserNotFoundMessage))
    else if roleId !in db.roles then Err(NotFound(RoleNotFoundMessage))
    else if (userId, roleId) !in db.userRoles then Err(BadRequest(NotAssignedMessage))
    else Ok(db.(userRoles := db.userRoles - {(userId, roleId)}))
  }

  /** Assigning a role and removing it again restores the store, provided
      the admin's rights survive the assignment (they do: assigning only adds
      a pair). */
  lemma AssignThenRemove(db: Db, userId: UserId, roleId: int, adminId: UserId)
    requires AssignRole(db, userId, roleId, adminId).Ok?
    ensures var granted := AssignRole(db, userId, roleId, adminId).value;
      && AssignRole(granted, userId, roleId, adminId) == Err(BadRequest(AlreadyAssignedMessage))
      && RemoveRole(granted, userId, roleId, adminId) == Ok(db)
  {
    var granted := AssignRole(db, userId, roleId, adminId).value;
    var w :| w in db.userRoles && w.0 == adminId && w.1 in db.roles
      && (Mentions(db.roles[w.1], "admin") || Mentions(db.roles[w.1], "superadmin"));
    assert w in granted.userRoles;
    assert granted.userRoles - {(userId, roleId)} == db.userRoles;
  }

  /** Removing an assigned role and assigning it again restores the store
      when the admin does not lose their rights by the removal. */
  lemma RemoveThenAssign(db: Db, userId: UserId, roleId: int, adminId: UserId)
    requires RemoveRole(db, userId, roleId, adminId).Ok?
    requires IsAdmin(RemoveRole(db, userId, roleId, adminId).value, adminId)
    ensures var removed := RemoveRole(db, userId, roleId, adminId).value;
      && RemoveRole(removed, userId, roleId, adminId) == Err(BadRequest(NotAssignedMessage))
      && AssignRole(removed, userId, roleId, adminId) == Ok(db)
  {
    var removed := RemoveRole(db, userId, roleId, adminId).value;
    assert removed.userRoles + {(userId, roleId)} == db.userRoles;
  }

  /** An admin can strip their own admin role: with a single admin role the
      removal succeeds and leaves nobody able to assign roles back. */
  lemma LastAdminCanDemoteThemself()
    ensures var db := Db(map[1 := User("a", "b", "a@b.c", "", Bcrypt("x"), 0, 0)],
                         map[9 := Role(Some("admin"))], {(1, 9)}, [], [], map[], {}, [], [], {},
                         map[], map[], [], [], [], [], []);
      && RemoveRole(db, 1, 9, 1).Ok?
      && !IsAdmin(RemoveRole(db, 1, 9, 1).value, 1)
  {
    var db := Db(map[1 := User("a", "b", "a@b.c", "", Bcrypt("x"), 0, 0)],
                 map[9 := Role(Some("admin"))], {(1, 9)}, [], [], map[], {}, [], [], {},
                 map[], map[], [], [], [], [], []);
    assert "admin"[..5] == "admin";
    assert (1, 9) in db.userRoles && Mentions(db.roles[9], "admin");
    var after := RemoveRole(db, 1, 9, 1).value;
    assert after.userRoles == {};
  }
}
